=== FILE: README.md ===
# StampKit core, modelled in Dafny

StampKit lets a Stamp server publish *timelines* to clients on the local network and
exchange notes with them over OSC. The model covers the core of the library:

- the **address router**: how an incoming OSC message is classified (`Messages.Type`,
  `Messages.UpdateTypeOf`), and the address helpers that add or strip the application
  namespace, the reply prefix and the `/timeline/<id>` infix;
- the **packet codec**: the JSON envelope `{status, address_pattern, version, data}`,
  whose payload variant the decoder picks from the address alone, together with the
  timeline, connection-status and note descriptors it carries;
- the **server registry** (`Servers.Server`): the timeline list with its add, remove,
  rename and re-password operations; the per-timeline peer lists filled by
  connect requests (password checked), emptied by disconnect requests, and pruned of dead
  peers; the "which timelines may this peer address" query; and the dispatch of incoming
  messages;
- **client-side bookkeeping**: the note responder (`Responses`), a server as the client
  sees it (`ServerFacades.ServerFacade`) with its set of `Timelines.Timeline` objects
  refreshed from a timelines reply, and the client's completion-handler table and
  timeline prefix (`Clients`).

Sockets, JSON text and the network are not modelled. A message's sender is an
`Option<Socket>` parameter. A peer's liveness is a set of live socket handles, passed
as a parameter. What the server sends is appended to `replies`. What it tells its
delegate is appended to `events`.

Some parts of the code stop short. The model follows the code as it stands:

- The client stores a completion handler per request address (`SKClient.swift:20`,
  `:50-55`), but no code looks one up or removes one: `process(message:)` only logs.
  The model has the table and `send`, and no dispatch.
- `SKAddressParts` declares a heartbeat part (`/thump`), but the router has no test for it.
- The server answers only timelines, connect and disconnect requests (`SKServer.swift:91-100`).
  Everything else, notes included, goes to the delegate with the timelines the sender may address.
- A note descriptor holds only its text, its colour and a status code (`SKNoteDescription.swift:15-27`).

The code uses `SKAddressParts.response` (`Sources/StampKit/Extensions/OSCMessage.swift:53`,
`:121`, `:125`), `.note` and `.notes`, but `SKAddressParts` (`Sources/StampKit/SKDefine.swift:35-45`)
declares none of the three. The model takes `/response`, `/note` and `/notes` from the comments
at `OSCMessage.swift:50`, `:98` and `:103`. The enum does declare `reply = "/reply"`
(`SKDefine.swift:37`); had that been the reply prefix, it would be six characters long
instead of nine, and the trap in the first finding below would fire under six. The payload variant `.notes` is used by `SKResponse` but missing from `SKData`,
so the model adds it to `Packets.Data`.

## Model

| member | source | states |
|---|---|---|
| Json.DecodeString | Sources/StampKit/SKPacket.swift:34-36 | a string field decodes exactly when present with a string value; otherwise key-not-found or type-mismatch |
| Json.DecodeBool | Sources/StampKit/SKTimelineDescription.swift:50 | a boolean field decodes exactly when present with a boolean value; otherwise the matching error |
| Json.DecodeInt | Sources/StampKit/SKNoteDescription.swift:17 | a number field decodes exactly when present with a number value; otherwise the matching error |
| Uuids.ParseUuid | Sources/StampKit/SKServer.swift:144 | UUID(uuidString:) succeeds exactly on 8-4-4-4-12 hex text, and yields its upper-case canonical form |
| Uuids.ParseCanonical | Sources/StampKit/SKServer.swift:144 | a canonical uuid's text parses back to itself |
| Descriptions.NewTimelineDescription | Sources/StampKit/SKTimelineDescription.swift:22-30 | keeps name and uuid; an empty password is stored as no password, any other is kept |
| Descriptions.EmptyPasswordOpensForAll | Sources/StampKit/SKTimelineDescription.swift:22-34 | a descriptor made with an empty password equals one made with none, and authorises every caller |
| Descriptions.AuthorisedExactlyByPassword | Sources/StampKit/SKTimelineDescription.swift:32-34 | a passworded descriptor authorises exactly its own password and never a missing one |
| Descriptions.EqualityNotByUuidAlone | Sources/StampKit/SKTimelineDescription.swift:69-73 | two descriptors with the same uuid but different names are different |
| Descriptions.EncodeTimeline | Sources/StampKit/SKTimelineDescription.swift:58-64 | the object has exactly the keys name, uuid and password; password is the has-password flag |
| Descriptions.EncodeHidesSecret | Sources/StampKit/SKTimelineDescription.swift:58-64 | the encoding of a passworded descriptor does not depend on the password |
| Descriptions.DecodeTimeline | Sources/StampKit/SKTimelineDescription.swift:44-56 | decoding succeeds exactly on an object with a string name, a string uuid that parses and a boolean password flag; the descriptor has that name and uuid, and the password-required marker exactly when the flag is set |
| Descriptions.WireView | Sources/StampKit/SKTimelineDescription.swift:50-55 | what survives the wire: name, uuid and whether there is a password |
| Descriptions.TimelineRoundTrip | Sources/StampKit/SKTimelineDescription.swift:44-64 | decoding an encoded descriptor gives its wire view: the password becomes the marker |
| Descriptions.EncodeStatus | Sources/StampKit/SKStatusDescription.swift:15-31 | the object has exactly the keys status and timeline_uuid, holding the status text and the uuid text |
| Descriptions.DecodeStatus | Sources/StampKit/SKStatusDescription.swift:15-31 | decoding succeeds exactly on an object with a string status and a timeline_uuid string that parses; the result carries that status and uuid |
| Descriptions.StatusRoundTrip | Sources/StampKit/SKStatusDescription.swift:15-31 | a status descriptor survives encode then decode unchanged |
| Descriptions.ColourNamed | Sources/StampKit/SKResponse.swift:45 | a recognised colour name maps to the colour whose raw value it is |
| Descriptions.ColourNameRoundTrip | Sources/StampKit/SKResponse.swift:45 | every colour is recognised by its own raw value |
| Descriptions.EncodeNote | Sources/StampKit/SKNoteDescription.swift:15-33 | the object has exactly the keys note, colour and response_status_code, holding the text, the colour's raw value and the code |
| Descriptions.DecodeNote | Sources/StampKit/SKNoteDescription.swift:15-33 | decoding succeeds exactly on an object with a string note, a recognised colour name and a number code; the result carries those three |
| Descriptions.NoteRoundTrip | Sources/StampKit/SKNoteDescription.swift:15-33 | a note descriptor survives encode then decode unchanged |
| Packets.SelectedKind | Sources/StampKit/SKPacket.swift:38-49 | the decoder's payload choice by address: timelines for exactly the timelines address, else connect for a /connect suffix, else note for a /note suffix, else empty; never notes |
| Packets.EncodeTimelineList | Sources/StampKit/SKPacket.swift:59-61 | a timeline list encodes element by element |
| Packets.DecodeTimelineList | Sources/StampKit/SKPacket.swift:39-41 | the list decodes exactly when every element does, into the decoded elements in order; otherwise with the error of the first element that fails |
| Packets.WireViewList | Sources/StampKit/SKPacket.swift:39-41 | the wire view of a list is the wire view of each element |
| Packets.TimelineListRoundTrip | Sources/StampKit/SKPacket.swift:39-41 | decoding an encoded timeline list gives the wire view of each descriptor |
| Packets.EncodeNoteList | Sources/StampKit/SKResponse.swift:30-35 | a note list encodes element by element |
| Packets.WireData | Sources/StampKit/SKPacket.swift:52-69 | only timeline lists change on the wire; the payload variant never does |
| Packets.Encode | Sources/StampKit/SKPacket.swift:52-69 | status, address_pattern and version are always written; data is written for every variant but empty |
| Packets.DecodeData | Sources/StampKit/SKPacket.swift:38-49 | the payload is of the selected variant; a needed but missing data field is key-not-found; a timelines payload that is not an array is a type mismatch; otherwise the payload decodes exactly when its descriptor or list does, with its value or its error |
| Packets.Decode | Sources/StampKit/SKPacket.swift:31-50 | decoding succeeds exactly on an object whose status, version and address_pattern are strings and whose data decodes as the variant that address selects; the packet carries those three strings and exactly the payload the data decoder returns |
| Packets.EmptyIgnoresData | Sources/StampKit/SKPacket.swift:48 | when the address selects no payload, the data field has no effect on decoding |
| Packets.RoundTrip | Sources/StampKit/SKPacket.swift:31-69 | a packet whose payload matches its address survives encode then decode, up to the wire view |
| Packets.WireViewIsStable | Sources/StampKit/SKPacket.swift:31-69 | a packet already in wire form survives encode then decode exactly |
| Packets.MismatchedPayloadIsLost | Sources/StampKit/SKPacket.swift:38-49 | a payload that does not match its address never comes back from the decoder |
| Messages.Type | Sources/StampKit/Extensions/OSCMessage.swift:25-45 | timelines exactly for the timelines address; each other type only when its test holds (three segments ending in connect or disconnect, the reply or update prefix, a /notes suffix with no arguments, a /note suffix with a string first argument); unknown only outside the timelines, reply and update addresses; with the classification lemmas below, the intended addresses get their type |
| Messages.ConnectAddressClassified | Sources/StampKit/Extensions/OSCMessage.swift:88-91 | /timeline/<id>/connect is a connect request for any arguments |
| Messages.DisconnectAddressClassified | Sources/StampKit/Extensions/OSCMessage.swift:93-96 | /timeline/<id>/disconnect is a disconnect request for any arguments |
| Messages.NoteNeedsStringArgument | Sources/StampKit/Extensions/OSCMessage.swift:103-107 | an address ending in /note is a note request exactly when its first argument is a string |
| Messages.NotesNeedsNoArguments | Sources/StampKit/Extensions/OSCMessage.swift:98-101 | an address ending in /notes is a notes request exactly when it has no arguments |
| Messages.UpdateTypeOf | Sources/StampKit/Extensions/OSCMessage.swift:71-80 | an update type other than unknown only under the update prefix: a timeline update has three segments with "timeline" second, a disconnect update four ending in "disconnect"; with the two lemmas below, /update/timeline/<id> and /update/timeline/<id>/disconnect get their type |
| Messages.TimelineUpdateClassified | Sources/StampKit/Extensions/OSCMessage.swift:71-75 | /update/timeline/<id> is a timeline update |
| Messages.DisconnectUpdateClassified | Sources/StampKit/Extensions/OSCMessage.swift:71-78 | /update/timeline/<id>/disconnect is a disconnect update |
| Messages.WithApplication | Sources/StampKit/Extensions/OSCMessage.swift:111-113 | the result carries the namespace; an address already in it is unchanged, any other is prefixed |
| Messages.WithoutApplication | Sources/StampKit/Extensions/OSCMessage.swift:114-117 | the namespace's length is dropped; an address in the namespace is what follows it |
| Messages.ApplicationRoundTrip | Sources/StampKit/Extensions/OSCMessage.swift:111-118 | stripping undoes adding, and adding twice is adding once |
| Messages.EmptyApplicationIsIdentity | Sources/StampKit/Extensions/OSCMessage.swift:111-118 | with StampKit's empty namespace both directions leave the address unchanged |
| Messages.ResponseAddress | Sources/StampKit/Extensions/OSCMessage.swift:120-122 | the reply prefix followed by the address |
| Messages.AddressWithoutResponse | Sources/StampKit/Extensions/OSCMessage.swift:124-127 | corrected: a reply address loses its prefix; any other address is unchanged |
| Messages.ResponseRoundTrip | Sources/StampKit/Extensions/OSCMessage.swift:120-127 | stripping the reply prefix recovers the request's address |
| Messages.AddressWithoutResponseAsWritten | Sources/StampKit/Extensions/OSCMessage.swift:124-127 | as written: traps exactly on addresses shorter than the reply prefix |
| Messages.ShortAddressTraps | Sources/StampKit/Extensions/OSCMessage.swift:124-127 | /note traps as written but is returned unchanged by the corrected version |
| Messages.AsWrittenAgreesWhenLongEnough | Sources/StampKit/Extensions/OSCMessage.swift:124-127 | where the written version does not trap, it agrees with the corrected one |
| Messages.AddressWithoutTimeline | Sources/StampKit/Extensions/OSCMessage.swift:129-139 | corrected: built on the corrected reply-prefix strip, so a short address does not trap; without an id it is the reply prefix stripped |
| Messages.WithoutTimelineStripsOnlyThatPrefix | Sources/StampKit/Extensions/OSCMessage.swift:129-139 | with an id, a leading /timeline/<id> is removed and nothing else changes |
| Messages.ReplyCorrelates | Sources/StampKit/Extensions/OSCMessage.swift:120-139 | the reply to /timeline/<id><rest> maps back to <rest> |
| Messages.UuidOf | Sources/StampKit/Extensions/OSCMessage.swift:150-153 | the second address segment, exactly when the first is "timeline" and a second exists |
| Messages.ReplyTo | Sources/StampKit/SKServer.swift:135-140 | the reply goes to the request's reply address (the reply prefix followed by the request's address, which stripping the prefix recovers) and carries the request's own address, status, version and payload |
| Messages.ResponsePacket | Sources/StampKit/Extensions/OSCMessage.swift:141-148 | invalid type for a non-reply; invalid arguments unless there is exactly one string argument; a corrupted-data error when the text does not parse; otherwise exactly the packet the decoder returns, or its error |
| ClientFacades.HasSocketIsSame | Sources/StampKit/SKClientFacade.swift:21-32 | hasSocket(socket:) agrees with == on a facade for that socket |
| ClientFacades.SameIsEquivalence | Sources/StampKit/SKClientFacade.swift:28-32 | peer equality is reflexive, symmetric and transitive |
| ClientFacades.IdentityIgnoresLiveness | Sources/StampKit/SKClientFacade.swift:14-32 | a live peer equals a dead one on the same interface, host and port |
| Registry.FirstIndexOf | Sources/StampKit/SKServer.swift:60 | the first index holding the descriptor, exactly when it is listed |
| Registry.TimelineWith | Sources/StampKit/SKServer.swift:87-89 | the first listed descriptor with that uuid, exactly when one exists |
| Registry.Added | Sources/StampKit/SKServer.swift:59-65 | a listed descriptor leaves the list unchanged; a new one is appended at the end |
| Registry.Removed | Sources/StampKit/SKServer.swift:67-71 | the first occurrence is removed and the rest keep their order; an unlisted descriptor changes nothing |
| Registry.Replaced | Sources/StampKit/SKServer.swift:73-85 | the first occurrence is replaced at its own index and every other entry is kept; nothing changes when it is not listed |
| Registry.RemoveUndoesAdd | Sources/StampKit/SKServer.swift:59-71 | removing a newly added descriptor restores the list |
| Registry.AddIsIdempotent | Sources/StampKit/SKServer.swift:59-65 | adding twice is adding once |
| Registry.Renamed | Sources/StampKit/SKServer.swift:73-78 | the first occurrence of a listed timeline with a different name is replaced in place by the descriptor rebuilt with the new name; otherwise nothing changes; with ChangesKeepIdentities every uuid is kept |
| Registry.Repassworded | Sources/StampKit/SKServer.swift:80-85 | the first occurrence of a listed timeline with a different password is replaced in place by the descriptor rebuilt with the new password; otherwise nothing changes; with ChangesKeepIdentities a non-empty new password opens the timeline |
| Registry.ChangesKeepIdentities | Sources/StampKit/SKServer.swift:73-85 | rename and re-password keep length and every uuid; a changed entry is the rebuilt descriptor; after a re-password with a non-empty password the timeline opens to it |
| Registry.FirstSameIndex | Sources/StampKit/SKServer.swift:160 | the first index of an equal peer (no earlier peer is equal), exactly when there is one |
| Registry.Register | Sources/StampKit/SKServer.swift:157-168 | the timeline gains a peer list holding the peer; other lists are unchanged |
| Registry.RegisterExactlyOnce | Sources/StampKit/SKServer.swift:157-168 | afterwards exactly one entry equals the peer; every other entry was there before, and none is lost |
| Registry.RemoveSame | Sources/StampKit/SKServer.swift:183 | removes exactly the entries equal to the peer |
| Registry.Unregister | Sources/StampKit/SKServer.swift:181-185 | only the timeline's list changes, losing exactly the entries equal to the peer |
| Registry.LiveOnly | Sources/StampKit/SKServer.swift:191 | keeps exactly the connected peers |
| Registry.Prune | Sources/StampKit/SKServer.swift:190-193 | afterwards every list is non-empty and all live; every live entry is kept; nothing is added |
| Registry.RegisteredAfterRegister | Sources/StampKit/SKServer.swift:157-168 | a registration afterwards was there before or is the new peer |
| Registry.RegisteredAfterUnregister | Sources/StampKit/SKServer.swift:179-188 | unregistering adds nobody, and removes the peer from that timeline |
| Registry.RegisteredAfterPrune | Sources/StampKit/SKServer.swift:190-193 | pruning adds nobody |
| Registry.Target | Sources/StampKit/SKServer.swift:144 | the guard of connect and disconnect: a sender, a parseable uuid in the address, a listed timeline with it |
| Registry.GrantIffAuthorised | Sources/StampKit/SKServer.swift:143-155 | a request that passes the guard is granted exactly when the timeline's authorised(with:) accepts its argument, and denied otherwise |
| Registry.ConnectRegistersOnlyAuthorised | Sources/StampKit/SKServer.swift:143-177 | after a connect, every registered peer was registered before or sent a request that the password check accepted |
| Registry.RequestsKeepWellFormed | Sources/StampKit/SKServer.swift:143-193 | connect and disconnect keep every peer list non-empty and without repeated peers |
| Registry.DisconnectDeregisters | Sources/StampKit/SKServer.swift:179-188 | after a disconnect the sender is no longer registered for that timeline, and nobody new is |
| Registry.ReferencedEntry | Sources/StampKit/SKServer.swift:104 | the uuid the address names, exactly when there is a sender, the address names a uuid that parses, and that uuid has a peer list |
| Registry.TimelinesAuthorised | Sources/StampKit/SKServer.swift:102-122 | a named timeline with a peer list only for a registered sender; otherwise every password-free timeline plus those the sender is registered for; never a passworded one the sender is not registered for |
| Registry.AuthorisedHasNoDuplicates | Sources/StampKit/SKServer.swift:109-120 | on a timeline list without repeats, the timelines returned are not repeated |
| Registry.RenameCanRepeatAuthorised | Sources/StampKit/SKServer.swift:59-78 | adding two timelines with one uuid and renaming the second to the first's name leaves the same descriptor listed twice, and a message that names no timeline then reaches the delegate with it twice |
| Servers.ReceivedEvent | Sources/StampKit/SKServer.swift:96-99 | at most one notification, with the message and a non-empty list excluding passworded timelines the sender is not registered for |
| Servers.ReceivedOnlyForRegistered | Sources/StampKit/SKServer.swift:96-122 | a message reaches the delegate for a passworded timeline only from a registered sender |
| Servers.Server.constructor | Sources/StampKit/SKServer.swift:27-39 | no timelines, no connections, nothing sent, nothing notified |
| Servers.Server.Add | Sources/StampKit/SKServer.swift:59-65 | the list becomes the added list and the delegate is told |
| Servers.Server.Remove | Sources/StampKit/SKServer.swift:67-71 | the list becomes the removed list; the delegate is told only if it changed |
| Servers.Server.ChangeName | Sources/StampKit/SKServer.swift:73-78 | the list becomes the renamed list; the delegate is told only for a listed timeline with a different name |
| Servers.Server.ChangePassword | Sources/StampKit/SKServer.swift:80-85 | the list becomes the re-passworded list; the delegate is told only for a listed timeline with a different password |
| Servers.Server.TimelineNamed | Sources/StampKit/SKServer.swift:87-89 | a listed timeline with that uuid, exactly when one exists |
| Servers.Server.SendTimelines | Sources/StampKit/SKServer.swift:135-141 | a sender gets the timeline list as reply; nothing else changes |
| Servers.Server.TidyConnections | Sources/StampKit/SKServer.swift:190-193 | the peer lists become their pruned form, which is well formed |
| Servers.Server.Connect | Sources/StampKit/SKServer.swift:143-177 | ignored without sender, uuid or timeline; denied with an unauthorised status; or registered, tidied, answered with an authorised status and notified |
| Servers.Server.Disconnect | Sources/StampKit/SKServer.swift:179-188 | the peer is unregistered and the lists tidied, and the delegate is told; no reply |
| Servers.Server.Process | Sources/StampKit/SKServer.swift:91-100 | the timelines are kept; a timelines request gets the list as reply; a connect request is ignored, denied with an unauthorised reply, or registered with an authorised reply and a clients-updated event; a disconnect request from a sender naming a listed timeline unregisters the sender, tidies and tells the delegate, and otherwise changes nothing; no disconnect is answered; anything else only notifies the delegate |
| Servers.Server.Take | Sources/StampKit/SKServer.swift:204-211 | a message in the namespace is handled exactly as process handles it; any other changes nothing |
| Responses.NoteColour | Sources/StampKit/SKResponse.swift:42-47 | the dictionary's colour when it holds one; otherwise the colour a string second argument names, else green |
| Responses.NoteText | Sources/StampKit/SKResponse.swift:48-53 | the dictionary's text, else the first argument when it is a string, else empty |
| Responses.NotesListed | Sources/StampKit/SKResponse.swift:31-34 | the dictionary's notes when it holds a note list, otherwise none |
| Responses.ResponseFor | Sources/StampKit/SKResponse.swift:20-58 | a reply exactly for notes and note requests, sent to the reply prefix followed by the request's address and carrying that address in the packet, the listed notes or the new note |
| Responses.NoteEchoesRequest | Sources/StampKit/SKResponse.swift:41-58 | without overrides the note reply echoes the request's text and the colour its second argument names (green when there is no recognised name) with the code |
| Responses.IllTypedOverridesAreIgnored | Sources/StampKit/SKResponse.swift:30-53 | a dictionary whose every value has the wrong kind gives the same reply as no dictionary |
| Responses.OverridesWin | Sources/StampKit/SKResponse.swift:41-53 | a text and a colour in the dictionary win over the request's own arguments |
| Responses.NoteAddressSelectsNote | Sources/StampKit/SKPacket.swift:38-47 | the decoder reads a note payload for any address ending in /note |
| Responses.NotesAddressSelectsNothing | Sources/StampKit/SKPacket.swift:38-49 | the decoder reads no payload for an address ending in /notes |
| Responses.NoteReplyRoundTrips | Sources/StampKit/SKResponse.swift:41-58 | the note reply's packet survives encode then decode unchanged |
| Responses.NotesReplyLosesNotes | Sources/StampKit/SKResponse.swift:30-39 | the notes reply's packet decodes with an empty payload: the listed notes are lost |
| Timelines.Updated | Sources/StampKit/SKTimeline.swift:21-32 | a display name string replaces the name, a passcode boolean replaces the flag, anything else leaves them |
| Timelines.UpdateIsIdempotent | Sources/StampKit/SKTimeline.swift:21-32 | applying a dictionary twice is applying it once |
| Timelines.DictionaryOf | Sources/StampKit/SKServerFacade.swift:65 | the dictionary a descriptor is applied through: its name and its has-password flag |
| Timelines.UpdateFromDescriptionShowsIt | Sources/StampKit/SKServerFacade.swift:63-65 | after applying a descriptor a timeline shows exactly its name and password flag |
| Timelines.Timeline.FromDescription | Sources/StampKit/SKServerFacade.swift:67 | a new timeline shows the descriptor's name, uuid and password flag |
| Timelines.Timeline.Update | Sources/StampKit/SKTimeline.swift:21-32 | the timeline becomes the updated one, and the result says whether it changed |
| ServerFacades.ServerFacade.constructor | Sources/StampKit/SKServerFacade.swift:36-42 | the name is the host; port 0 means StampKit's port; no timelines |
| ServerFacades.ServerFacade.Stop | Sources/StampKit/SKServerFacade.swift:48-52 | the timelines are forgotten |
| ServerFacades.ServerFacade.TimelineWith | Sources/StampKit/SKServerFacade.swift:56-58 | a listed timeline with that uuid, or none exactly when there is none |
| ServerFacades.ServerFacade.Absorb | Sources/StampKit/SKServerFacade.swift:62-69 | the timeline listed under the uuid, refreshed, or a new one; it shows the descriptor; no other timeline changes |
| ServerFacades.ServerFacade.Collect | Sources/StampKit/SKServerFacade.swift:60-71 | the new set shows every descriptor and only descriptors; uniquely identified timelines that are named again are reused |
| ServerFacades.ServerFacade.Update | Sources/StampKit/SKServerFacade.swift:60-73 | the timelines become the collected set, dropped ones are untouched, and the delegate is told |
| ServerFacades.ServerFacade.OnTimelinesReply | Sources/StampKit/SKServerFacade.swift:98-105 | a timelines payload updates the set and is handed to the completion; any other payload changes nothing |
| Clients.TimelinePrefixAsWritten | Sources/StampKit/SKClient.swift:21 | as written: "//timeline/" followed by the id; for a slash-free id the segments are "", "timeline" and the id |
| Clients.TimelinePrefix | Sources/StampKit/SKClient.swift:21 | corrected: "/timeline/" followed by the id; for a slash-free id the segments are "timeline" and the id |
| Clients.AsWrittenPrefixNamesNoTimeline | Sources/StampKit/SKClient.swift:21 | as written, no request under the prefix names a timeline, whatever follows |
| Clients.AsWrittenReplyNotCorrelated | Sources/StampKit/SKClient.swift:21 | as written, the reply's address is not mapped back to the timeline-relative address |
| Clients.ConnectThroughPrefix | Sources/StampKit/SKClient.swift:21 | corrected, /connect under the prefix is a connect request, granted exactly when the password opens the timeline, and its reply maps back to /connect; as written it is of unknown type and names no timeline |
| Clients.AsWrittenConnectIsUnknown | Sources/StampKit/SKClient.swift:21 | as written, the connect request passes none of the router's tests |
| Clients.AsWrittenConnectReachesDelegate | Sources/StampKit/SKServer.swift:91-120 | as written, the connect request is passed to the delegate, for every open timeline and every timeline the sender is registered under |
| Clients.Client.constructor | Sources/StampKit/SKClient.swift:20-31 | no handlers and nothing sent |
| Clients.Client.Send | Sources/StampKit/SKClient.swift:50-55 | a handler is stored under the address, replacing any earlier one; the message is sent |
| Clients.ReplyFindsHandler | Sources/StampKit/SKClient.swift:50-55 | the key send(message:) stores a handler under equals the address the server's reply packet carries |

## Left out

- Bonjour publishing and browsing (`SKPublisher`, `SKBrowser`), heartbeats and reconnection, and the refresh timer: these are network discovery and scheduling with no state the core depends on.
- Sockets, framing and threading: sending is appended to `Servers.Server.replies`, and the client's sent messages to `Clients.Client.sent`.
- Delegate calls are appended to `Servers.Server.events`, or counted in `ServerFacades.ServerFacade.notifications`.
- The completion handler of a refresh is represented by the value `OnTimelinesReply` returns.
- JSON text and UTF-8: the codec works on a JSON value. `Messages.ResponsePacket` takes the text-to-value parser as a parameter, and its string-decoding error is folded into a decoding error.
- Peer liveness (`isConnected`): a set of live socket handles, passed as a parameter.
- `SKClient.sendMessage(with:arguments:timeline:completionHandler:)` has an empty body, so a refresh never sends anything. The model starts at the reply it would get (`ServerFacades.ServerFacade.OnTimelinesReply`).
- `SKClient.process(message:)` only logs.
- `SKClient` connect and disconnect only call the transport.
- `SKServer.start`, `stop` and `take(bundle:)` only call the transport or log.
- `SKServer.jsonString` falls back to an empty string when encoding fails. Encoding the modelled values cannot fail, so that path is absent.
- Messages.UuidOf: `uuid()` indexes segment 0 without checking that it exists. The segments of an OSC address always include one, so the model omits the trap.
- Messages.ConnectAddressClassified: `isConnect` and `isDisconnect` look only at the segment count and the last segment, so they also accept addresses whose first segment is not "timeline". The model keeps that, and the lemmas state only the intended addresses.
- `StampKitVersion` is not part of this model. The server's version string is a constructor parameter.
- `SKNoteColour` is not part of this model. Its cases and raw values (green, red, yellow, purple) are assumed.
- `SKResponseStatusCode` is not part of this model; it is an integer.
- `SKOSCDisplayNameKey` and `SKOSCHasPasscodeKey` are not part of this model; they are two distinct fixed strings.
- The glue between the server facade and its timelines does not compile as written:
  - `SKTimeline.init` is empty, and the model's constructor takes the descriptor's name, uuid and password flag;
  - `update(with:)` is called with a descriptor, and the model passes it as that dictionary;
  - timelines are looked up by `uuid` rather than `uniqueID`, and the model uses `uniqueID`.
- Timelines.Timeline: `uniqueID` is a constant, because nothing reassigns it after initialisation.
- ServerFacades.ServerFacade.Collect: the contract does not say that two descriptors with the same uuid become a single timeline. Set insertion of the same object is only implied.
- ServerFacades.ServerFacade.Update: the model does not fix which of several timelines with the same uuid is reused. The source takes the first in an unordered set.
- AuthorisedHasNoDuplicates: holds only for a timeline list without repeats, and the server does not keep its list that way (`Registry.RenameCanRepeatAuthorised`).
- Swift `String` semantics: `==`, `hasPrefix` and `hasSuffix` compare by Unicode canonical equivalence, and `count` and `index(offsetBy:)` count grapheme clusters. The model compares and counts `char` elements. Two canonically equivalent strings with different encodings are equal in the source and different in the model. For example, the password check at `Sources/StampKit/SKServer.swift:147` accepts a password in NFC form against the same password stored in NFD form, and `Registry.DecideConnect` denies it.
- Servers.Server.Take: with the namespace empty, every message is in it, so the dropped branch is never taken.

## Findings

| source | as written | input that shows it | evidently intended | confidence | as-written member | corrected member |
|---|---|---|---|---|---|---|
| Sources/StampKit/Extensions/OSCMessage.swift:124-127 | the index past the reply prefix is computed before checking that the address is a reply, so a shorter address traps | latent: `addressWithoutResponse` is private and its only caller, `addressWithoutTimeline` (OSCMessage.swift:129), has no caller; called on any address shorter than the reply prefix, e.g. "/note", it would trap (the threshold rests on the undeclared `.response` literal, see above) | return a non-reply address unchanged | high that it traps; latent (not executed) | Messages.AddressWithoutResponseAsWritten | Messages.AddressWithoutResponse |
| Sources/StampKit/SKClient.swift:21 | the prefix interpolates "/timeline" after a slash, giving "//timeline/<id>" | any timeline id: "//timeline/<id>/connect" has four segments and an empty first one, so it is of unknown type and `uuid()` finds no timeline; the server does not decide it as a connect request but passes it to the delegate for every open timeline and every timeline the sender is registered under. The prefix is private and unused today, since `sendMessage` has an empty body | "/timeline/<id>", so requests name the timeline and replies correlate | high (not executed) | Clients.AsWrittenConnectReachesDelegate | Clients.ConnectThroughPrefix |

=== FILE: address_parts.dfy ===
/**
 * The fixed literals of the protocol (SKAddressParts and the port number).
 * The response prefix and the note and notes suffixes are used by the router
 * but not declared beside the others; they take the values their comments give.
 */
module AddressParts {
  /** The application namespace; empty in this version of the protocol. */
  const Application: string := ""
  const Update: string := "/update"
  const Timelines: string := "/timelines"
  const Timeline: string := "/timeline"
  const Connect: string := "/connect"
  const Disconnect: string := "/disconnect"
  const Response: string := "/response"
  const Note: string := "/note"
  const Notes: string := "/notes"

  /** The default Stamp port. */
  const PortNumber: int := 24601
}

=== FILE: client.dfy ===
/**
 * The client's bookkeeping: completion handlers keyed by request address, the
 * requests sent, and the timeline prefix put in front of timeline-scoped
 * requests.
 */
module Clients {
  import opened Wrappers
  import opened Strings
  import opened Uuids
  import opened Descriptions
  import opened ClientFacades
  import opened Messages
  import Packets
  import Registry
  import Servers
  import AP = AddressParts

  /** The pieces of "/timeline/<id>", for a slash-free id. */
  lemma TimelineSplit(id: string)
    requires '/' !in id
    ensures Split(AP.Timeline + "/" + id) == ["", "timeline", id]
  {
    SplitPart(AP.Timeline);
    SplitSlashFree(id);
    SplitAppend(AP.Timeline, id);
  }

  /** The same behind one more slash. */
  lemma SlashedTimelineSplit(id: string)
    requires '/' !in id
    ensures Split("/" + AP.Timeline + "/" + id) == ["", "", "timeline", id]
  {
    var x := AP.Timeline + "/" + id;
    TimelineSplit(id);
    assert "/" + AP.Timeline + "/" + id == "" + "/" + x;
    SplitCons("", x);
  }

  /** timelinePrefix as written: a slash, the "/timeline" part, a slash, then the id or nothing. */
  function TimelinePrefixAsWritten(timelineID: Option<string>): (r: string)
    ensures r == "//timeline/" + (if timelineID.Some? then timelineID.value else "")
    ensures timelineID.Some? && '/' !in timelineID.value ==> Segments(r) == ["", "timeline", timelineID.value]
  {
    var id := if timelineID.Some? then timelineID.value else "";
    if '/' !in id then SlashedTimelineSplit(id); "/" + AP.Timeline + "/" + id
    else "/" + AP.Timeline + "/" + id
  }

  /** timelinePrefix as the server reads it: "/timeline/" and then the id, two segments. */
  function TimelinePrefix(timelineID: Option<string>): (r: string)
    ensures r == "/timeline/" + (if timelineID.Some? then timelineID.value else "")
    ensures timelineID.Some? && '/' !in timelineID.value ==> Segments(r) == ["timeline", timelineID.value]
  {
    var id := if timelineID.Some? then timelineID.value else "";
    if '/' !in id then TimelineSplit(id); AP.Timeline + "/" + id
    else AP.Timeline + "/" + id
  }

  /** The canonical text of a UUID has no '/'. */
  lemma UuidHasNoSlash(u: Uuid)
    ensures '/' !in u
  {
    forall i | 0 <= i < |u| ensures u[i] != '/' {
      assert IsHyphenPosition(i) || IsHexDigit(u[i]);
    }
  }

  /** The first segment of an address that starts with two slashes is empty. */
  lemma DoubleSlashFirstSegmentEmpty(address: string)
    requires HasPrefix(address, "//")
    ensures |Segments(address)| >= 1 && Segments(address)[0] == ""
  {
    assert address[0] == '/' && address[1] == '/';
    assert Split(address) == [""] + Split(address[1..]);
    assert address[1..][0] == '/';
    assert Split(address[1..]) == [""] + Split(address[1..][1..]);
  }

  /** A request sent under the prefix as written names no timeline: its first segment is empty. */
  lemma AsWrittenPrefixNamesNoTimeline(id: string, relative: string, args: seq<Argument>)
    ensures UuidOf(Message(TimelinePrefixAsWritten(Some(id)) + relative, args)).None?
  {
    var a := TimelinePrefixAsWritten(Some(id)) + relative;
    assert a[..2] == TimelinePrefixAsWritten(Some(id))[..2];
    DoubleSlashFirstSegmentEmpty(a);
  }

  /** ...and the reply's address is not recognised as belonging to the client's timeline. */
  lemma AsWrittenReplyNotCorrelated(id: string, relative: string)
    ensures var request := TimelinePrefixAsWritten(Some(id)) + relative;
      AddressWithoutTimeline(ResponseAddress(request), Some(id)) == request
  {
    var request := TimelinePrefixAsWritten(Some(id)) + relative;
    ResponseRoundTrip(request);
    assert request[1] == '/';
    assert (AP.Timeline + "/" + id)[1] == 't';
  }

  /**
   * The connect request a client meant to send for its timeline: the server
   * grants it exactly when the password opens that timeline, and the reply
   * comes back to the timeline-relative "/connect". Under the prefix as
   * written the request is no connect request at all: it has four segments,
   * so it is of unknown type and names no timeline.
   */
  lemma ConnectThroughPrefix(timelines: seq<TimelineDescription>, conns: Registry.Connections, u: Uuid,
                             args: seq<Argument>, sender: Socket)
    requires exists d :: d in timelines && d.uuid == u
    ensures var m := Message(TimelinePrefix(Some(u)) + AP.Connect, args);
      var t := Registry.TimelineWith(timelines, u).value;
      Type(m) == ReceiveType.Connect &&
      (Registry.DecideConnect(timelines, m, Some(sender)).Grant? <==> t.Authorised(Registry.SuppliedPassword(m))) &&
      (!Registry.DecideConnect(timelines, m, Some(sender)).Grant? ==> Registry.DecideConnect(timelines, m, Some(sender)).Deny?)
    ensures var w := Message(TimelinePrefixAsWritten(Some(u)) + AP.Connect, args);
      Type(w) == ReceiveType.Unknown && Registry.ReferencedEntry(conns, w, Some(sender)).None?
    ensures AddressWithoutTimeline(ResponseAddress(TimelinePrefix(Some(u)) + AP.Connect), Some(u)) == AP.Connect
  {
    var m := Message(TimelinePrefix(Some(u)) + AP.Connect, args);
    UuidHasNoSlash(u);
    ConnectAddressClassified(u, args);
    ParseCanonical(u);
    Registry.GrantIffAuthorised(timelines, m, Some(sender));
    AsWrittenConnectIsUnknown(u, args);
    AsWrittenPrefixNamesNoTimeline(u, AP.Connect, args);
    ReplyCorrelates(u, AP.Connect);
  }

  /** "//timeline/<u>/connect" passes none of the router's tests. */
  lemma AsWrittenConnectIsUnknown(u: Uuid, args: seq<Argument>)
    ensures Type(Message(TimelinePrefixAsWritten(Some(u)) + AP.Connect, args)) == ReceiveType.Unknown
  {
    var w := TimelinePrefixAsWritten(Some(u)) + AP.Connect;
    var rest := AP.Timeline + "/" + u + AP.Connect;
    assert w == "/" + rest;
    UuidHasNoSlash(u);
    TimelineActionSegments(u, AP.Connect);
    SegmentsOfOscAddress(rest);
    assert Split(rest) == Split(rest)[..1] + Segments(rest);
    assert |Segments(w)| == 4;
    assert w[1] == '/';
    assert w[|w| - 1] == 't';
    assert !HasPrefix(w, AP.Response) by { assert AP.Response[1] == 'r'; }
    assert !HasPrefix(w, AP.Update) by { assert AP.Update[1] == 'u'; }
    assert !HasSuffix(w, AP.Notes) by { assert AP.Notes[|AP.Notes| - 1] == 's'; }
    assert !HasSuffix(w, AP.Note) by { assert AP.Note[|AP.Note| - 1] == 'e'; }
  }

  /**
   * What the server does with the as-written connect request: it goes to the
   * delegate, for every open timeline and every timeline the sender is
   * registered under.
   */
  lemma AsWrittenConnectReachesDelegate(timelines: seq<TimelineDescription>, conns: Registry.Connections, u: Uuid,
                                        args: seq<Argument>, sender: Socket, d: TimelineDescription)
    requires d in timelines && (!d.HasPassword() || Registry.Registered(conns, d.uuid, sender))
    ensures var w := Message(TimelinePrefixAsWritten(Some(u)) + AP.Connect, args);
      var e := Servers.ReceivedEvent(timelines, conns, w, Some(sender));
      Type(w) == ReceiveType.Unknown && |e| == 1 && d in e[0].forTimelines
  {
    var w := Message(TimelinePrefixAsWritten(Some(u)) + AP.Connect, args);
    AsWrittenConnectIsUnknown(u, args);
    AsWrittenPrefixNamesNoTimeline(u, AP.Connect, args);
    assert Registry.ReferencedEntry(conns, w, Some(sender)).None?;
    var r := Registry.TimelinesAuthorised(timelines, conns, w, Some(sender));
    assert r.0 && d in r.1;
  }

  class Client {
    /** Completion handlers, by the address of the request they wait for. */
    var callbacks: map<string, nat>
    /** The requests handed to the transport, oldest first. */
    var sent: seq<Message>
    /** The timeline the client's delegate belongs to, if any. */
    var timelineID: Option<string>

    constructor (timelineID: Option<string>)
      ensures callbacks == map[] && sent == [] && this.timelineID == timelineID
    {
      callbacks := map[];
      sent := [];
      this.timelineID := timelineID;
    }

    /** send(message:withCompletionHandler:): remember the handler under the address, then send. */
    method Send(m: Message, handler: Option<nat>)
      modifies this
      ensures callbacks == if handler.Some? then old(callbacks)[m.addressPattern := handler.value] else old(callbacks)
      ensures sent == old(sent) + [m] && timelineID == old(timelineID)
    {
      if handler.Some? {
        callbacks := callbacks[m.addressPattern := handler.value];
      }
      sent := sent + [m];
    }
  }

  /** A reply built for a request finds the handler stored when that request was sent. */
  lemma ReplyFindsHandler(callbacks: map<string, nat>, m: Message, h: nat, status: string, version: string, data: Packets.Data)
    ensures var r := ReplyTo(AP.Application, m, status, version, data);
      r.packet.addressPattern in callbacks[m.addressPattern := h] &&
      callbacks[m.addressPattern := h][r.packet.addressPattern] == h
  {
  }
}

=== FILE: client_facade.dfy ===
/**
 * A connected peer as the server sees it: a handle on a transport socket whose
 * identity is the (interface, host, port) triple.
 */
module ClientFacades {

  /**
   * A transport socket. `handle` tells apart two socket objects that share an
   * address; liveness belongs to the handle, identity to the triple.
   */
  datatype Socket = Socket(handle: nat, interface: string, host: string, port: int)

  datatype ClientFacade = ClientFacade(socket: Socket)

  /** isConnected, given the set of socket handles the transport reports as connected. */
  predicate IsConnected(f: ClientFacade, live: set<nat>) {
    f.socket.handle in live
  }

  /** hasSocket(socket:) */
  predicate HasSocket(f: ClientFacade, s: Socket) {
    f.socket.interface == s.interface && f.socket.host == s.host && f.socket.port == s.port
  }

  /** The facade's ==: equal interface, host and port. */
  predicate Same(a: ClientFacade, b: ClientFacade) {
    a.socket.interface == b.socket.interface && a.socket.host == b.socket.host && a.socket.port == b.socket.port
  }

  /** hasSocket(s) is == against a facade wrapping s. */
  lemma HasSocketIsSame(f: ClientFacade, s: Socket)
    ensures HasSocket(f, s) <==> Same(f, ClientFacade(s))
  {
  }

  /** == is an equivalence relation. */
  lemma SameIsEquivalence(a: ClientFacade, b: ClientFacade, c: ClientFacade)
    ensures Same(a, a)
    ensures Same(a, b) ==> Same(b, a)
    ensures Same(a, b) && Same(b, c) ==> Same(a, c)
  {
  }

  /** Identity ignores liveness: a facade and its re-opened twin are equal while only one is connected. */
  lemma IdentityIgnoresLiveness(s: Socket, otherHandle: nat, live: set<nat>)
    requires s.handle in live && otherHandle !in live
    ensures var twin := ClientFacade(s.(handle := otherHandle));
      Same(ClientFacade(s), twin) && IsConnected(ClientFacade(s), live) && !IsConnected(twin, live)
  {
  }
}

=== FILE: descriptions.dfy ===
/**
 * The payload records carried inside a packet: the timeline descriptor, the
 * connection status and the note, each with its JSON coding.
 */
module Descriptions {
  import opened Wrappers
  import opened Uuids
  import opened Json

  /** The sentinel a client stores for a timeline whose wire form says it has a password. */
  const PasswordRequired: string := "SKPASSWORDREQUIRED"

  // ---------------------------------------------------------------- timelines

  /** A timeline: display name, identity and optional password. */
  datatype TimelineDescription = TimelineDescription(name: string, uuid: Uuid, password: Option<string>)
  {
    predicate HasPassword() {
      password.Some?
    }

    /** Whether `supplied` opens this timeline. */
    predicate Authorised(supplied: Option<string>) {
      if HasPassword() then supplied == password else true
    }
  }

  /** What every initialised descriptor satisfies: an empty password is never stored. */
  predicate Normalised(d: TimelineDescription) {
    d.password != Some("")
  }

  /** The initialiser: an empty password string means "no password". */
  function NewTimelineDescription(name: string, uuid: Uuid, password: Option<string>): (d: TimelineDescription)
    ensures Normalised(d)
    ensures d.name == name && d.uuid == uuid
    ensures d.HasPassword() <==> password.Some? && password.value != ""
    ensures d.HasPassword() ==> d.password == password
  {
    if password == Some("") then TimelineDescription(name, uuid, None)
    else TimelineDescription(name, uuid, password)
  }

  /** A timeline initialised with the empty password opens for anything, including no password. */
  lemma EmptyPasswordOpensForAll(name: string, uuid: Uuid, supplied: Option<string>)
    ensures NewTimelineDescription(name, uuid, Some("")).Authorised(supplied)
    ensures NewTimelineDescription(name, uuid, Some("")) == NewTimelineDescription(name, uuid, None)
  {
  }

  /** A password-protected timeline opens for exactly one value: its own password. */
  lemma AuthorisedExactlyByPassword(d: TimelineDescription, supplied: Option<string>)
    requires d.HasPassword()
    ensures d.Authorised(supplied) <==> supplied == Some(d.password.value)
    ensures !d.Authorised(None)
  {
  }

  /** Equality is on name, uuid and password together: two descriptors of one timeline can differ. */
  lemma EqualityNotByUuidAlone(d: TimelineDescription, name: string)
    requires name != d.name
    ensures d.(name := name).uuid == d.uuid && d.(name := name) != d
  {
  }

  const NameKey: string := "name"
  const UuidKey: string := "uuid"
  const PasswordKey: string := "password"

  /** The wire form: name, uuid and, under "password", only whether there is one. */
  function EncodeTimeline(d: TimelineDescription): (j: Json)
    ensures j.JObject? && j.fields.Keys == {NameKey, UuidKey, PasswordKey}
    ensures j.fields[PasswordKey] == JBool(d.HasPassword())
    ensures j.fields[NameKey] == JString(d.name) && j.fields[UuidKey] == JString(d.uuid)
  {
    JObject(map[NameKey := JString(d.name), UuidKey := JString(d.uuid), PasswordKey := JBool(d.HasPassword())])
  }

  /** The secret never reaches the wire: descriptors that differ only in their secret encode alike. */
  lemma EncodeHidesSecret(d: TimelineDescription, secret: string)
    requires d.HasPassword()
    ensures EncodeTimeline(d.(password := Some(secret))) == EncodeTimeline(d)
  {
  }

  /** The decoder: name, uuid, then the Boolean flag, which becomes the sentinel password or none. */
  function DecodeTimeline(j: Json): (r: Result<TimelineDescription, DecodeError>)
    ensures r.Ok? <==>
      && j.JObject?
      && DecodeString(j.fields, NameKey).Ok?
      && DecodeString(j.fields, UuidKey).Ok? && ParseUuid(DecodeString(j.fields, UuidKey).value).Some?
      && DecodeBool(j.fields, PasswordKey).Ok?
    ensures r.Ok? ==>
      && j.fields[NameKey] == JString(r.value.name)
      && ParseUuid(j.fields[UuidKey].s) == Some(r.value.uuid)
      && j.fields[PasswordKey] == JBool(r.value.HasPassword())
    ensures r.Ok? ==> r.value.password == (if r.value.HasPassword() then Some(PasswordRequired) else None)
    ensures r.Ok? ==> Normalised(r.value)
  {
    if !j.JObject? then Err(TypeMismatch(""))
    else
      match DecodeString(j.fields, NameKey)
      case Err(e) => Err(e)
      case Ok(name) =>
        match DecodeString(j.fields, UuidKey)
        case Err(e) => Err(e)
        case Ok(text) =>
          match ParseUuid(text)
          case None => Err(DataCorrupted(UuidKey))
          case Some(uuid) =>
            match DecodeBool(j.fields, PasswordKey)
            case Err(e) => Err(e)
            case Ok(hasPassword) =>
              Ok(TimelineDescription(name, uuid, if hasPassword then Some(PasswordRequired) else None))
  }

  /** What a receiver learns of a descriptor: its secret replaced by the sentinel. */
  function WireView(d: TimelineDescription): (w: TimelineDescription)
    ensures w.name == d.name && w.uuid == d.uuid && w.HasPassword() == d.HasPassword()
  {
    d.(password := if d.HasPassword() then Some(PasswordRequired) else None)
  }

  /** Decoding an encoding keeps name, uuid and whether there is a password, but not the secret. */
  lemma TimelineRoundTrip(d: TimelineDescription)
    ensures DecodeTimeline(EncodeTimeline(d)) == Ok(WireView(d))
  {
    ParseCanonical(d.uuid);
  }

  // ---------------------------------------------------------------- connection status

  /** The reply to a connect request: "authorised" or "unauthorised" for one timeline. */
  datatype StatusDescription = StatusDescription(status: string, uuid: Uuid)

  const Authorised: string := "authorised"
  const Unauthorised: string := "unauthorised"

  const StatusKey: string := "status"
  const TimelineUuidKey: string := "timeline_uuid"

  function EncodeStatus(s: StatusDescription): (j: Json)
    ensures j.JObject? && j.fields.Keys == {StatusKey, TimelineUuidKey}
    ensures j.fields[StatusKey] == JString(s.status) && j.fields[TimelineUuidKey] == JString(s.uuid)
  {
    JObject(map[StatusKey := JString(s.status), TimelineUuidKey := JString(s.uuid)])
  }

  function DecodeStatus(j: Json): (r: Result<StatusDescription, DecodeError>)
    ensures r.Ok? <==>
      && j.JObject?
      && DecodeString(j.fields, StatusKey).Ok?
      && DecodeString(j.fields, TimelineUuidKey).Ok? && ParseUuid(DecodeString(j.fields, TimelineUuidKey).value).Some?
    ensures r.Ok? ==>
      j.fields[StatusKey] == JString(r.value.status) && ParseUuid(j.fields[TimelineUuidKey].s) == Some(r.value.uuid)
  {
    if !j.JObject? then Err(TypeMismatch(""))
    else
      match DecodeString(j.fields, StatusKey)
      case Err(e) => Err(e)
      case Ok(status) =>
        match DecodeString(j.fields, TimelineUuidKey)
        case Err(e) => Err(e)
        case Ok(text) =>
          match ParseUuid(text)
          case None => Err(DataCorrupted(TimelineUuidKey))
          case Some(uuid) => Ok(StatusDescription(status, uuid))
  }

  lemma StatusRoundTrip(s: StatusDescription)
    ensures DecodeStatus(EncodeStatus(s)) == Ok(s)
  {
    ParseCanonical(s.uuid);
  }

  // ---------------------------------------------------------------- notes

  datatype Colour = Green | Red | Yellow | Purple

  function ColourName(c: Colour): string {
    match c
    case Green => "green"
    case Red => "red"
    case Yellow => "yellow"
    case Purple => "purple"
  }

  /** SKNoteColour(rawValue:) */
  function ColourNamed(s: string): (r: Option<Colour>)
    ensures r.Some? ==> ColourName(r.value) == s
  {
    if s == "green" then Some(Green)
    else if s == "red" then Some(Red)
    else if s == "yellow" then Some(Yellow)
    else if s == "purple" then Some(Purple)
    else None
  }

  lemma ColourNameRoundTrip(c: Colour)
    ensures ColourNamed(ColourName(c)) == Some(c)
  {
  }

  /** A note stamp: its text, its colour and the status code the server answered with. */
  datatype NoteDescription = NoteDescription(note: string, colour: Colour, code: int)

  const NoteKey: string := "note"
  const ColourKey: string := "colour"
  const CodeKey: string := "response_status_code"

  function EncodeNote(n: NoteDescription): (j: Json)
    ensures j.JObject? && j.fields.Keys == {NoteKey, ColourKey, CodeKey}
    ensures j.fields[NoteKey] == JString(n.note) && j.fields[ColourKey] == JString(ColourName(n.colour))
    ensures j.fields[CodeKey] == JNumber(n.code)
  {
    JObject(map[NoteKey := JString(n.note), ColourKey := JString(ColourName(n.colour)), CodeKey := JNumber(n.code)])
  }

  function DecodeNote(j: Json): (r: Result<NoteDescription, DecodeError>)
    ensures r.Ok? <==>
      && j.JObject?
      && DecodeString(j.fields, NoteKey).Ok?
      && DecodeString(j.fields, ColourKey).Ok? && ColourNamed(DecodeString(j.fields, ColourKey).value).Some?
      && DecodeInt(j.fields, CodeKey).Ok?
    ensures r.Ok? ==>
      && j.fields[NoteKey] == JString(r.value.note)
      && ColourNamed(j.fields[ColourKey].s) == Some(r.value.colour)
      && j.fields[CodeKey] == JNumber(r.value.code)
  {
    if !j.JObject? then Err(TypeMismatch(""))
    else
      match DecodeString(j.fields, NoteKey)
      case Err(e) => Err(e)
      case Ok(note) =>
        match DecodeString(j.fields, ColourKey)
        case Err(e) => Err(e)
        case Ok(name) =>
          match ColourNamed(name)
          case None => Err(DataCorrupted(ColourKey))
          case Some(colour) =>
            match DecodeInt(j.fields, CodeKey)
            case Err(e) => Err(e)
            case Ok(code) => Ok(NoteDescription(note, colour, code))
  }

  lemma NoteRoundTrip(n: NoteDescription)
    ensures DecodeNote(EncodeNote(n)) == Ok(n)
  {
    ColourNameRoundTrip(n.colour);
  }

  // ---------------------------------------------------------------- untyped values

  /** A value of Swift type `Any` as the dictionaries of the protocol hold them. */
  datatype AnyValue =
    | AnyString(s: string)
    | AnyBool(b: bool)
    | AnyInt(i: int)
    | AnyColour(c: Colour)
    | AnyNotes(notes: seq<NoteDescription>)
}

=== FILE: json.dfy ===
/**
 * The JSON document that JSONEncoder/JSONDecoder read and write, kept abstract
 * as a tree of values; keyed containers are maps from key to value.
 */
module Json {
  import opened Wrappers

  datatype Json =
    | JNull
    | JBool(b: bool)
    | JNumber(n: int)
    | JString(s: string)
    | JArray(items: seq<Json>)
    | JObject(fields: map<string, Json>)

  /** Why a keyed decode failed, with the key it failed at ("" for the container itself). */
  datatype DecodeError =
    | KeyNotFound(key: string)
    | TypeMismatch(key: string)
    | DataCorrupted(key: string)

  /** container.decode(String.self, forKey: key) */
  function DecodeString(fields: map<string, Json>, key: string): (r: Result<string, DecodeError>)
    ensures r.Ok? <==> key in fields && fields[key].JString?
    ensures r.Ok? ==> fields[key] == JString(r.value)
    ensures r.Err? ==> r.error == (if key in fields then TypeMismatch(key) else KeyNotFound(key))
  {
    if key !in fields then Err(KeyNotFound(key))
    else if fields[key].JString? then Ok(fields[key].s)
    else Err(TypeMismatch(key))
  }

  /** container.decode(Bool.self, forKey: key) */
  function DecodeBool(fields: map<string, Json>, key: string): (r: Result<bool, DecodeError>)
    ensures r.Ok? <==> key in fields && fields[key].JBool?
    ensures r.Ok? ==> fields[key] == JBool(r.value)
    ensures r.Err? ==> r.error == (if key in fields then TypeMismatch(key) else KeyNotFound(key))
  {
    if key !in fields then Err(KeyNotFound(key))
    else if fields[key].JBool? then Ok(fields[key].b)
    else Err(TypeMismatch(key))
  }

  /** container.decode(Int.self, forKey: key) */
  function DecodeInt(fields: map<string, Json>, key: string): (r: Result<int, DecodeError>)
    ensures r.Ok? <==> key in fields && fields[key].JNumber?
    ensures r.Ok? ==> fields[key] == JNumber(r.value)
    ensures r.Err? ==> r.error == (if key in fields then TypeMismatch(key) else KeyNotFound(key))
  {
    if key !in fields then Err(KeyNotFound(key))
    else if fields[key].JNumber? then Ok(fields[key].n)
    else Err(TypeMismatch(key))
  }
}

=== FILE: osc_message.dfy ===
/**
 * The address router: how an inbound OSC message is classified from its
 * address pattern and arguments, and the helpers that build and take apart
 * reply addresses.
 */
module Messages {
  import opened Wrappers
  import opened Strings
  import opened Json
  import Packets
  import AP = AddressParts

  /** An OSC argument; only its type and, for strings, its value matter here. */
  datatype Argument =
    | StringArg(s: string)
    | IntArg(i: int)
    | FloatArg(f: real)
    | BlobArg(bytes: seq<bv8>)

  datatype Message = Message(addressPattern: string, arguments: seq<Argument>)

  /** The operation an inbound message asks for. */
  datatype ReceiveType = Timelines | Connect | Disconnect | Notes | Note | Response | Update | Unknown

  /** The sub-kinds of an update push. */
  datatype UpdateType = TimelineUpdate | DisconnectUpdate | UnknownUpdate

  /** addressParts: the '/'-separated segments of the address, leading segment dropped. */
  function Segments(address: string): seq<string> {
    Split(address)[1..]
  }

  /** An OSC address starts with '/', so it has at least one segment. */
  lemma SegmentsOfOscAddress(rest: string)
    ensures |Segments("/" + rest)| >= 1
    ensures Segments("/" + rest) == Split(rest)
  {
    SplitCons("", rest);
  }

  // ---------------------------------------------------------------- classification

  predicate IsForStamp(m: Message) {
    HasPrefix(m.addressPattern, AP.Application)
  }

  predicate IsTimelines(m: Message) {
    m.addressPattern == AP.Timelines
  }

  predicate IsConnect(m: Message) {
    var parts := Segments(m.addressPattern);
    |parts| == 3 && parts[2] == AP.Connect[1..]
  }

  predicate IsDisconnect(m: Message) {
    var parts := Segments(m.addressPattern);
    |parts| == 3 && parts[2] == AP.Disconnect[1..]
  }

  predicate IsResponse(m: Message) {
    HasPrefix(m.addressPattern, AP.Response)
  }

  predicate IsUpdate(m: Message) {
    HasPrefix(m.addressPattern, AP.Update)
  }

  predicate IsNotes(m: Message) {
    HasSuffix(m.addressPattern, AP.Notes) && |m.arguments| == 0
  }

  predicate IsNote(m: Message) {
    |m.arguments| >= 1 && m.arguments[0].StringArg? && HasSuffix(m.addressPattern, AP.Note)
  }

  /** The first test that holds, in the order timelines, connect, disconnect, response, update, notes, note. */
  function Type(m: Message): (r: ReceiveType)
    ensures r == Timelines <==> m.addressPattern == AP.Timelines
    ensures r == Connect ==> |Segments(m.addressPattern)| == 3 && Segments(m.addressPattern)[2] == "connect"
    ensures r == Disconnect ==> |Segments(m.addressPattern)| == 3 && Segments(m.addressPattern)[2] == "disconnect"
    ensures r == Response ==> HasPrefix(m.addressPattern, AP.Response)
    ensures r == Update ==> HasPrefix(m.addressPattern, AP.Update) && !HasPrefix(m.addressPattern, AP.Response)
    ensures r == Notes ==> HasSuffix(m.addressPattern, AP.Notes) && |m.arguments| == 0
    ensures r == Note ==> HasSuffix(m.addressPattern, AP.Note) && |m.arguments| >= 1 && m.arguments[0].StringArg?
    ensures r == Unknown ==>
      m.addressPattern != AP.Timelines && !HasPrefix(m.addressPattern, AP.Response) && !HasPrefix(m.addressPattern, AP.Update)
  {
    if IsTimelines(m) then Timelines
    else if IsConnect(m) then Connect
    else if IsDisconnect(m) then Disconnect
    else if IsResponse(m) then Response
    else if IsUpdate(m) then Update
    else if IsNotes(m) then Notes
    else if IsNote(m) then Note
    else Unknown
  }

  /** A literal address part: "/" followed by one slash-free word. */
  lemma SplitPart(part: string)
    requires |part| >= 1 && part[0] == '/' && '/' !in part[1..]
    ensures Split(part) == ["", part[1..]]
    ensures Split(part[1..]) == [part[1..]]
  {
    SplitSlashFree(part[1..]);
  }

  /** Segments of "/timeline/<id>" followed by a "/<action>" part. */
  lemma TimelineActionSegments(id: string, action: string)
    requires '/' !in id
    requires |action| >= 1 && action[0] == '/' && '/' !in action[1..]
    ensures Segments(AP.Timeline + "/" + id + action) == ["timeline", id, action[1..]]
  {
    SplitPart(AP.Timeline);
    SplitSlashFree(id);
    SplitAppend(AP.Timeline, id);
    SplitAppendSlashed(AP.Timeline + "/" + id, action);
    SplitSlashFree(action[1..]);
  }

  /** "/timeline/<id>/connect" is a connect request for <id>, whatever its arguments. */
  lemma ConnectAddressClassified(id: string, args: seq<Argument>)
    requires '/' !in id
    ensures var m := Message(AP.Timeline + "/" + id + AP.Connect, args);
      Type(m) == Connect && UuidOf(m) == Some(id)
  {
    var a := AP.Timeline + "/" + id + AP.Connect;
    TimelineActionSegments(id, AP.Connect);
    assert a != AP.Timelines by { assert a[9] == '/' != AP.Timelines[9]; }
  }

  /** "/timeline/<id>/disconnect" is a disconnect request for <id>, whatever its arguments. */
  lemma DisconnectAddressClassified(id: string, args: seq<Argument>)
    requires '/' !in id
    ensures var m := Message(AP.Timeline + "/" + id + AP.Disconnect, args);
      Type(m) == Disconnect && UuidOf(m) == Some(id)
  {
    var a := AP.Timeline + "/" + id + AP.Disconnect;
    TimelineActionSegments(id, AP.Disconnect);
    assert a != AP.Timelines by { assert a[9] == '/' != AP.Timelines[9]; }
  }

  /** The last segment of an address ending in a "/<word>" part is <word>. */
  lemma LastSegment(prefix: string, part: string)
    requires |part| >= 1 && part[0] == '/' && '/' !in part[1..]
    ensures |Segments(prefix + part)| >= 1
    ensures Segments(prefix + part)[|Segments(prefix + part)| - 1] == part[1..]
  {
    SplitAppendSlashed(prefix, part);
    SplitSlashFree(part[1..]);
  }

  /** Facts about the literal "/note" suffix. */
  lemma NoteSuffixFacts(prefix: string)
    ensures HasSuffix(prefix + AP.Note, AP.Note)
    ensures !HasSuffix(prefix + AP.Note, AP.Notes)
    ensures prefix + AP.Note != AP.Timelines
  {
    var a := prefix + AP.Note;
    assert a[|a| - 1] == 'e';
    assert a[|prefix|..] == AP.Note;
  }

  /** Facts about the literal "/notes" suffix. */
  lemma NotesSuffixFacts(prefix: string)
    ensures HasSuffix(prefix + AP.Notes, AP.Notes)
    ensures !HasSuffix(prefix + AP.Notes, AP.Note)
    ensures prefix + AP.Notes != AP.Timelines
  {
    var a := prefix + AP.Notes;
    assert a[|a| - 1] == 's';
    assert a[|a| - 3] == 't';
    assert a[|prefix|..] == AP.Notes;
  }

  /**
   * Past the response and update prefixes, an address ending in "/note" is a
   * note exactly when the first argument is a string; otherwise it is unknown.
   */
  lemma NoteNeedsStringArgument(prefix: string, args: seq<Argument>)
    requires !HasPrefix(prefix + AP.Note, AP.Response) && !HasPrefix(prefix + AP.Note, AP.Update)
    ensures Type(Message(prefix + AP.Note, args)) == if |args| >= 1 && args[0].StringArg? then Note else Unknown
  {
    var m := Message(prefix + AP.Note, args);
    LastSegment(prefix, AP.Note);
    NoteSuffixFacts(prefix);
    assert !IsConnect(m) && !IsDisconnect(m);
  }

  /**
   * Past the response and update prefixes, an address ending in "/notes" is a
   * notes request exactly when there are no arguments; otherwise it is unknown.
   */
  lemma NotesNeedsNoArguments(prefix: string, args: seq<Argument>)
    requires !HasPrefix(prefix + AP.Notes, AP.Response) && !HasPrefix(prefix + AP.Notes, AP.Update)
    ensures Type(Message(prefix + AP.Notes, args)) == if args == [] then Notes else Unknown
  {
    var m := Message(prefix + AP.Notes, args);
    LastSegment(prefix, AP.Notes);
    NotesSuffixFacts(prefix);
    assert !IsConnect(m) && !IsDisconnect(m);
  }

  // ---------------------------------------------------------------- updates

  /** updateType(): only for update addresses; timeline on three segments, disconnect on four. */
  function UpdateTypeOf(m: Message): (r: UpdateType)
    ensures r != UnknownUpdate ==> HasPrefix(m.addressPattern, AP.Update)
    ensures r == TimelineUpdate ==> |Segments(m.addressPattern)| == 3 && Segments(m.addressPattern)[1] == "timeline"
    ensures r == DisconnectUpdate ==> |Segments(m.addressPattern)| == 4 && Segments(m.addressPattern)[3] == "disconnect"
  {
    if !IsUpdate(m) then UnknownUpdate
    else
      var parts := Segments(m.addressPattern);
      if |parts| == 3 && parts[1] == AP.Timeline[1..] then TimelineUpdate
      else if |parts| == 4 && parts[3] == AP.Disconnect[1..] then DisconnectUpdate
      else UnknownUpdate
  }

  /** The pieces of the literal "/update/timeline". */
  lemma UpdateTimelineSplit()
    ensures Split(AP.Update + AP.Timeline) == ["", "update", "timeline"]
  {
    SplitPart(AP.Update);
    SplitPart(AP.Timeline);
    SplitAppendSlashed(AP.Update, AP.Timeline);
  }

  /** Segments of "/update/timeline/<id>". */
  lemma UpdateTimelineSegments(id: string)
    requires '/' !in id
    ensures Split(AP.Update + AP.Timeline + "/" + id) == ["", "update", "timeline", id]
    ensures Segments(AP.Update + AP.Timeline + "/" + id) == ["update", "timeline", id]
  {
    UpdateTimelineSplit();
    SplitSlashFree(id);
    SplitAppend(AP.Update + AP.Timeline, id);
  }

  /** "/update/timeline/<id>" announces a timeline change. */
  lemma TimelineUpdateClassified(id: string, args: seq<Argument>)
    requires '/' !in id
    ensures UpdateTypeOf(Message(AP.Update + AP.Timeline + "/" + id, args)) == TimelineUpdate
  {
    var a := AP.Update + AP.Timeline + "/" + id;
    UpdateTimelineSegments(id);
    UpdatePrefixed(AP.Timeline + "/" + id);
    assert a == AP.Update + (AP.Timeline + "/" + id);
  }

  /** Segments of "/update/timeline/<id>/disconnect". */
  lemma UpdateDisconnectSegments(id: string)
    requires '/' !in id
    ensures Segments(AP.Update + AP.Timeline + "/" + id + AP.Disconnect) == ["update", "timeline", id, "disconnect"]
  {
    var b := AP.Update + AP.Timeline + "/" + id;
    UpdateTimelineSegments(id);
    SplitPart(AP.Disconnect);
    assert AP.Disconnect[1..] == "disconnect";
    SplitAppendSlashed(b, AP.Disconnect);
    assert Split(b + AP.Disconnect) == ["", "update", "timeline", id] + ["disconnect"];
  }

  /** Anything that starts with the update literal is an update address. */
  lemma UpdatePrefixed(rest: string)
    ensures HasPrefix(AP.Update + rest, AP.Update)
  {
    assert (AP.Update + rest)[..|AP.Update|] == AP.Update;
  }

  /** "/update/timeline/<id>/disconnect" tells a client it has been disconnected. */
  lemma DisconnectUpdateClassified(id: string, args: seq<Argument>)
    requires '/' !in id
    ensures UpdateTypeOf(Message(AP.Update + AP.Timeline + "/" + id + AP.Disconnect, args)) == DisconnectUpdate
  {
    UpdateDisconnectSegments(id);
    UpdatePrefixed(AP.Timeline + "/" + id + AP.Disconnect);
    assert AP.Update + AP.Timeline + "/" + id + AP.Disconnect == AP.Update + (AP.Timeline + "/" + id + AP.Disconnect);
  }

  // ---------------------------------------------------------------- address helpers

  /** addressPattern(withApplication: true): prefix the application namespace unless already there. */
  function WithApplication(app: string, address: string): (r: string)
    ensures HasPrefix(r, app)
    ensures HasPrefix(address, app) ==> r == address
    ensures !HasPrefix(address, app) ==> r[|app|..] == address
  {
    if !HasPrefix(address, app) then app + address else address
  }

  /** addressPattern(withApplication: false): drop as many leading characters as the namespace has. */
  function WithoutApplication(app: string, address: string): (r: string)
    requires |app| <= |address|
    ensures |r| == |address| - |app|
    ensures HasPrefix(address, app) ==> app + r == address
  {
    address[|app|..]
  }

  /** Prefixing and then stripping the namespace gives back an address that did not carry it. */
  lemma ApplicationRoundTrip(app: string, address: string)
    requires !HasPrefix(address, app)
    ensures WithoutApplication(app, WithApplication(app, address)) == address
    ensures WithApplication(app, WithApplication(app, address)) == WithApplication(app, address)
  {
  }

  /** With the empty namespace of this protocol version both directions are the identity. */
  lemma EmptyApplicationIsIdentity(address: string)
    ensures WithApplication(AP.Application, address) == address
    ensures WithoutApplication(AP.Application, address) == address
  {
  }

  /** responseAddress(): the reply prefix in front of the request's address. */
  function ResponseAddress(address: string): (r: string)
    ensures HasPrefix(r, AP.Response)
    ensures |r| == |AP.Response| + |address|
  {
    AP.Response + address
  }

  /** addressWithoutResponse(), as intended: strip the reply prefix if there is one. */
  function AddressWithoutResponse(address: string): (r: string)
    ensures !HasPrefix(address, AP.Response) ==> r == address
    ensures HasPrefix(address, AP.Response) ==> AP.Response + r == address
  {
    if HasPrefix(address, AP.Response) then address[|AP.Response|..] else address
  }

  /** Stripping the reply prefix undoes adding it. */
  lemma ResponseRoundTrip(address: string)
    ensures AddressWithoutResponse(ResponseAddress(address)) == address
  {
    assert (AP.Response + address)[|AP.Response|..] == address;
  }

  /**
   * addressWithoutResponse() as written: the start index is offset by the
   * prefix length before the prefix test, which traps (None here) on an address
   * shorter than the prefix.
   */
  function AddressWithoutResponseAsWritten(address: string): (r: Option<string>)
    ensures r.None? <==> |address| < |AP.Response|
  {
    if |address| < |AP.Response| then None
    else if HasPrefix(address, AP.Response) then Some(address[|AP.Response|..])
    else Some(address)
  }

  /** The written version traps on a short non-reply address the intended one returns unchanged. */
  lemma ShortAddressTraps()
    ensures AddressWithoutResponseAsWritten(AP.Note) == None
    ensures AddressWithoutResponse(AP.Note) == AP.Note
  {
  }

  /** Wherever the written version does not trap it agrees with the intended one. */
  lemma AsWrittenAgreesWhenLongEnough(address: string)
    requires |address| >= |AP.Response|
    ensures AddressWithoutResponseAsWritten(address) == Some(AddressWithoutResponse(address))
  {
  }

  /** addressWithoutTimeline(timelineID:): the reply prefix and then a leading "/timeline/<id>" removed. */
  function AddressWithoutTimeline(address: string, timelineID: Option<string>): (r: string)
    ensures timelineID.None? ==> r == AddressWithoutResponse(address)
  {
    var oldAddress := AddressWithoutResponse(address);
    match timelineID
    case None => oldAddress
    case Some(id) =>
      var prefix := AP.Timeline + "/" + id;
      if HasPrefix(oldAddress, prefix) then oldAddress[|prefix|..] else oldAddress
  }

  /** With an id, the "/timeline/<id>" infix is removed when present and nothing else changes. */
  lemma WithoutTimelineStripsOnlyThatPrefix(address: string, id: string)
    ensures var base := AddressWithoutResponse(address);
      var prefix := AP.Timeline + "/" + id;
      && (HasPrefix(base, prefix) ==> prefix + AddressWithoutTimeline(address, Some(id)) == base)
      && (!HasPrefix(base, prefix) ==> AddressWithoutTimeline(address, Some(id)) == base)
  {
  }

  /** A reply to a timeline-scoped request correlates back to the timeline-relative address. */
  lemma ReplyCorrelates(id: string, relative: string)
    ensures AddressWithoutTimeline(ResponseAddress(AP.Timeline + "/" + id + relative), Some(id)) == relative
  {
    var prefix := AP.Timeline + "/" + id;
    ResponseRoundTrip(prefix + relative);
    assert (prefix + relative)[..|prefix|] == prefix;
    assert (prefix + relative)[|prefix|..] == relative;
  }

  /** uuid(): segment 1 when segment 0 is "timeline" and a second segment exists. */
  function UuidOf(m: Message): (r: Option<string>)
    ensures r.Some? <==>
      var parts := Segments(m.addressPattern); |parts| >= 2 && parts[0] == AP.Timeline[1..]
    ensures r.Some? ==> r.value == Segments(m.addressPattern)[1]
  {
    var parts := Segments(m.addressPattern);
    if |parts| >= 1 && parts[0] == AP.Timeline[1..] && |parts| >= 2 then Some(parts[1]) else None
  }

  // ---------------------------------------------------------------- outgoing replies

  /** An outgoing OSC message whose one string argument is the JSON text of `packet`. */
  datatype Reply = Reply(addressPattern: string, packet: Packets.Packet)

  /**
   * The reply to `m` as the server and the note responder build it: sent to the
   * request's response address and tagged with the request's own address, both
   * in the application namespace.
   */
  function ReplyTo(app: string, m: Message, status: string, version: string, data: Packets.Data): (r: Reply)
    ensures HasPrefix(r.addressPattern, app) && HasPrefix(r.packet.addressPattern, app)
    ensures r.packet.data == data && r.packet.status == status && r.packet.version == version
    ensures app == AP.Application ==>
      HasPrefix(r.addressPattern, AP.Response) &&
      AddressWithoutResponse(r.addressPattern) == m.addressPattern && r.packet.addressPattern == m.addressPattern
  {
    if app == AP.Application then
      EmptyApplicationIsIdentity(ResponseAddress(m.addressPattern));
      EmptyApplicationIsIdentity(m.addressPattern);
      ResponseRoundTrip(m.addressPattern);
      Reply(WithApplication(app, ResponseAddress(m.addressPattern)),
            Packets.Packet(status, WithApplication(app, m.addressPattern), version, data))
    else
      Reply(WithApplication(app, ResponseAddress(m.addressPattern)),
            Packets.Packet(status, WithApplication(app, m.addressPattern), version, data))
  }

  // ---------------------------------------------------------------- replies

  datatype ResponseError =
    | InvalidMessageType
    | InvalidArguments
    | Decoding(cause: DecodeError)

  /**
   * response(): a reply's single string argument decoded as a packet.
   * `parse` stands for JSONDecoder's reading of the text into a JSON value.
   */
  function ResponsePacket(m: Message, parse: string -> Option<Json>): (r: Result<Packets.Packet, ResponseError>)
    ensures !IsResponse(m) ==> r == Err(InvalidMessageType)
    ensures IsResponse(m) && !(|m.arguments| == 1 && m.arguments[0].StringArg?) ==> r == Err(InvalidArguments)
    ensures r.Ok? ==> |m.arguments| == 1 && m.arguments[0].StringArg? && parse(m.arguments[0].s).Some?
                      && Packets.Decode(AP.Application, parse(m.arguments[0].s).value) == Ok(r.value)
    ensures IsResponse(m) && |m.arguments| == 1 && m.arguments[0].StringArg? && parse(m.arguments[0].s).None? ==>
      r == Err(Decoding(DataCorrupted("")))
    ensures IsResponse(m) && |m.arguments| == 1 && m.arguments[0].StringArg? && parse(m.arguments[0].s).Some? ==>
      match Packets.Decode(AP.Application, parse(m.arguments[0].s).value)
      case Ok(p) => r == Ok(p)
      case Err(e) => r == Err(Decoding(e))
  {
    if !IsResponse(m) then Err(InvalidMessageType)
    else if !(|m.arguments| == 1 && m.arguments[0].StringArg?) then Err(InvalidArguments)
    else
      match parse(m.arguments[0].s)
      case None => Err(Decoding(DataCorrupted("")))
      case Some(j) =>
        match Packets.Decode(AP.Application, j)
        case Err(e) => Err(Decoding(e))
        case Ok(p) => Ok(p)
  }
}

=== FILE: packet.dfy ===
/**
 * The envelope every reply carries: three scalar fields and a payload whose
 * variant the decoder picks from the address pattern alone.
 */
module Packets {
  import opened Wrappers
  import opened Strings
  import opened Json
  import opened Descriptions
  import AddressParts

  datatype Data =
    | Timelines(timelines: seq<TimelineDescription>)
    | Connect(connection: StatusDescription)
    | Note(note: NoteDescription)
    | Notes(notes: seq<NoteDescription>)
    | Empty

  datatype Packet = Packet(status: string, addressPattern: string, version: string, data: Data)

  const StatusKey: string := "status"
  const AddressPatternKey: string := "address_pattern"
  const VersionKey: string := "version"
  const DataKey: string := "data"

  datatype PayloadKind = TimelinesKind | ConnectKind | NoteKind | NotesKind | EmptyKind

  function KindOf(d: Data): PayloadKind {
    match d
    case Timelines(_) => TimelinesKind
    case Connect(_) => ConnectKind
    case Note(_) => NoteKind
    case Notes(_) => NotesKind
    case Empty => EmptyKind
  }

  /** The decoder's dispatch table: exact timelines address, then the connect suffix, then the note suffix. */
  function SelectedKind(app: string, address: string): (k: PayloadKind)
    ensures k != NotesKind
    ensures k == TimelinesKind <==> address == app + AddressParts.Timelines
    ensures k == ConnectKind <==> address != app + AddressParts.Timelines && HasSuffix(address, AddressParts.Connect)
    ensures k == NoteKind <==>
      address != app + AddressParts.Timelines && !HasSuffix(address, AddressParts.Connect) && HasSuffix(address, AddressParts.Note)
  {
    if address == app + AddressParts.Timelines then TimelinesKind
    else if HasSuffix(address, AddressParts.Connect) then ConnectKind
    else if HasSuffix(address, AddressParts.Note) then NoteKind
    else EmptyKind
  }

  // ---------------------------------------------------------------- lists

  function EncodeTimelineList(ds: seq<TimelineDescription>): (items: seq<Json>)
    ensures |items| == |ds|
    ensures forall i :: 0 <= i < |ds| ==> items[i] == EncodeTimeline(ds[i])
  {
    if ds == [] then [] else [EncodeTimeline(ds[0])] + EncodeTimelineList(ds[1..])
  }

  /** [SKTimelineDescription] decoding: every element must decode, and the first that does not fails the list. */
  function DecodeTimelineList(items: seq<Json>): (r: Result<seq<TimelineDescription>, DecodeError>)
    ensures r.Ok? <==> forall k :: 0 <= k < |items| ==> DecodeTimeline(items[k]).Ok?
    ensures r.Ok? ==> |r.value| == |items| && forall k :: 0 <= k < |items| ==> DecodeTimeline(items[k]) == Ok(r.value[k])
    ensures r.Err? ==>
      exists k :: 0 <= k < |items| && DecodeTimeline(items[k]) == Err(r.error) && (forall i :: 0 <= i < k ==> DecodeTimeline(items[i]).Ok?)
  {
    if items == [] then Ok([])
    else
      match DecodeTimeline(items[0])
      case Err(e) => Err(e)
      case Ok(d) =>
        match DecodeTimelineList(items[1..])
        case Err(e) => Err(e)
        case Ok(ds) => Ok([d] + ds)
  }

  function WireViewList(ds: seq<TimelineDescription>): (ws: seq<TimelineDescription>)
    ensures |ws| == |ds|
    ensures forall i :: 0 <= i < |ds| ==> ws[i] == WireView(ds[i])
  {
    if ds == [] then [] else [WireView(ds[0])] + WireViewList(ds[1..])
  }

  lemma {:induction false} TimelineListRoundTrip(ds: seq<TimelineDescription>)
    ensures DecodeTimelineList(EncodeTimelineList(ds)) == Ok(WireViewList(ds))
    decreases |ds|
  {
    if ds != [] {
      TimelineRoundTrip(ds[0]);
      TimelineListRoundTrip(ds[1..]);
      assert EncodeTimelineList(ds)[1..] == EncodeTimelineList(ds[1..]);
    }
  }

  function EncodeNoteList(ns: seq<NoteDescription>): (items: seq<Json>)
    ensures |items| == |ns|
    ensures forall i :: 0 <= i < |ns| ==> items[i] == EncodeNote(ns[i])
  {
    if ns == [] then [] else [EncodeNote(ns[0])] + EncodeNoteList(ns[1..])
  }

  // ---------------------------------------------------------------- envelope

  /** What the receiver of `d` can learn: timeline secrets become the sentinel. */
  function WireData(d: Data): (w: Data)
    ensures KindOf(w) == KindOf(d)
    ensures !d.Timelines? ==> w == d
  {
    match d
    case Timelines(ds) => Timelines(WireViewList(ds))
    case _ => d
  }

  /** SKPacket.encode(to:): the three scalars always, "data" for every variant but Empty. */
  function Encode(p: Packet): (j: Json)
    ensures j.JObject?
    ensures j.fields.Keys == {StatusKey, AddressPatternKey, VersionKey} + (if p.data.Empty? then {} else {DataKey})
    ensures j.fields[StatusKey] == JString(p.status)
    ensures j.fields[AddressPatternKey] == JString(p.addressPattern)
    ensures j.fields[VersionKey] == JString(p.version)
  {
    var scalars := map[StatusKey := JString(p.status), AddressPatternKey := JString(p.addressPattern), VersionKey := JString(p.version)];
    match p.data
    case Timelines(ds) => JObject(scalars[DataKey := JArray(EncodeTimelineList(ds))])
    case Connect(s) => JObject(scalars[DataKey := EncodeStatus(s)])
    case Note(n) => JObject(scalars[DataKey := EncodeNote(n)])
    case Notes(ns) => JObject(scalars[DataKey := JArray(EncodeNoteList(ns))])
    case Empty => JObject(scalars)
  }

  /** The payload of the variant `kind`, read from "data". */
  function DecodeData(kind: PayloadKind, fields: map<string, Json>): (r: Result<Data, DecodeError>)
    requires kind != NotesKind
    ensures r.Ok? ==> KindOf(r.value) == kind
    ensures kind == EmptyKind ==> r == Ok(Empty)
    ensures kind != EmptyKind && DataKey !in fields ==> r == Err(KeyNotFound(DataKey))
    ensures kind == TimelinesKind && DataKey in fields ==>
      && (!fields[DataKey].JArray? ==> r == Err(TypeMismatch(DataKey)))
      && (fields[DataKey].JArray? ==>
            (r.Ok? <==> DecodeTimelineList(fields[DataKey].items).Ok?) &&
            (r.Ok? ==> r.value.timelines == DecodeTimelineList(fields[DataKey].items).value) &&
            (r.Err? ==> r.error == DecodeTimelineList(fields[DataKey].items).error))
    ensures kind == ConnectKind && DataKey in fields ==>
      && (r.Ok? <==> DecodeStatus(fields[DataKey]).Ok?)
      && (r.Ok? ==> r.value.connection == DecodeStatus(fields[DataKey]).value)
      && (r.Err? ==> r.error == DecodeStatus(fields[DataKey]).error)
    ensures kind == NoteKind && DataKey in fields ==>
      && (r.Ok? <==> DecodeNote(fields[DataKey]).Ok?)
      && (r.Ok? ==> r.value.note == DecodeNote(fields[DataKey]).value)
      && (r.Err? ==> r.error == DecodeNote(fields[DataKey]).error)
  {
    match kind
    case EmptyKind => Ok(Empty)
    case TimelinesKind =>
      if DataKey !in fields then Err(KeyNotFound(DataKey))
      else if !fields[DataKey].JArray? then Err(TypeMismatch(DataKey))
      else
        (match DecodeTimelineList(fields[DataKey].items)
         case Err(e) => Err(e)
         case Ok(ds) => Ok(Timelines(ds)))
    case ConnectKind =>
      if DataKey !in fields then Err(KeyNotFound(DataKey))
      else
        (match DecodeStatus(fields[DataKey])
         case Err(e) => Err(e)
         case Ok(s) => Ok(Connect(s)))
    case NoteKind =>
      if DataKey !in fields then Err(KeyNotFound(DataKey))
      else
        (match DecodeNote(fields[DataKey])
         case Err(e) => Err(e)
         case Ok(n) => Ok(Note(n)))
  }

  /**
   * SKPacket.init(from:): status, version and address pattern first, then the
   * payload variant the address selects.
   */
  function Decode(app: string, j: Json): (r: Result<Packet, DecodeError>)
    ensures r.Ok? ==>
      && j.JObject?
      && StatusKey in j.fields && j.fields[StatusKey] == JString(r.value.status)
      && VersionKey in j.fields && j.fields[VersionKey] == JString(r.value.version)
      && AddressPatternKey in j.fields && j.fields[AddressPatternKey] == JString(r.value.addressPattern)
    ensures r.Ok? ==> KindOf(r.value.data) == SelectedKind(app, r.value.addressPattern)
    ensures r.Ok? <==>
      && j.JObject?
      && DecodeString(j.fields, StatusKey).Ok?
      && DecodeString(j.fields, VersionKey).Ok?
      && DecodeString(j.fields, AddressPatternKey).Ok?
      && DecodeData(SelectedKind(app, j.fields[AddressPatternKey].s), j.fields).Ok?
    ensures r.Ok? ==> DecodeData(SelectedKind(app, r.value.addressPattern), j.fields) == Ok(r.value.data)
  {
    if !j.JObject? then Err(TypeMismatch(""))
    else
      match DecodeString(j.fields, StatusKey)
      case Err(e) => Err(e)
      case Ok(status) =>
        match DecodeString(j.fields, VersionKey)
        case Err(e) => Err(e)
        case Ok(version) =>
          match DecodeString(j.fields, AddressPatternKey)
          case Err(e) => Err(e)
          case Ok(address) =>
            match DecodeData(SelectedKind(app, address), j.fields)
            case Err(e) => Err(e)
            case Ok(data) => Ok(Packet(status, address, version, data))
  }

  /** The decoder never sees "data" when the address selects no payload. */
  lemma EmptyIgnoresData(app: string, fields: map<string, Json>)
    requires AddressPatternKey in fields && fields[AddressPatternKey].JString?
    requires SelectedKind(app, fields[AddressPatternKey].s) == EmptyKind
    ensures Decode(app, JObject(fields)) == Decode(app, JObject(fields - {DataKey}))
  {
  }

  /** A packet whose payload is the variant its own address selects. */
  predicate PayloadMatchesAddress(app: string, p: Packet) {
    KindOf(p.data) == SelectedKind(app, p.addressPattern)
  }

  /**
   * The codec round trip: a packet whose payload matches its address decodes to
   * itself, except that timeline secrets come back as the sentinel.
   */
  lemma RoundTrip(app: string, p: Packet)
    requires PayloadMatchesAddress(app, p)
    ensures Decode(app, Encode(p)) == Ok(p.(data := WireData(p.data)))
  {
    var j := Encode(p);
    match p.data
    case Timelines(ds) => TimelineListRoundTrip(ds);
    case Connect(s) => StatusRoundTrip(s);
    case Note(n) => NoteRoundTrip(n);
    case Notes(_) =>
    case Empty =>
  }

  /** Once through the wire, encoding and decoding again changes nothing. */
  lemma WireViewIsStable(app: string, p: Packet)
    requires PayloadMatchesAddress(app, p)
    ensures var q := p.(data := WireData(p.data)); Decode(app, Encode(q)) == Ok(q)
  {
    var q := p.(data := WireData(p.data));
    RoundTrip(app, q);
    if p.data.Timelines? {
      var ds := p.data.timelines;
      assert WireViewList(WireViewList(ds)) == WireViewList(ds);
    }
  }

  /** A packet whose payload is not the selected variant never comes back as sent. */
  lemma MismatchedPayloadIsLost(app: string, p: Packet)
    requires !PayloadMatchesAddress(app, p)
    ensures Decode(app, Encode(p)).Ok? ==> Decode(app, Encode(p)).value.data != p.data
  {
  }
}

=== FILE: registry.dfy ===
/**
 * The server's registry logic as functions: the timeline list queries, the
 * per-timeline peer lists that connect, disconnect and tidying produce, and
 * the authorisation query. The Server class applies them to its state.
 */
module Registry {
  import opened Wrappers
  import opened Uuids
  import opened Descriptions
  import opened ClientFacades
  import Messages

  type Connections = map<Uuid, seq<ClientFacade>>

  // ---------------------------------------------------------------- sequences

  predicate NoDuplicates<T(==)>(s: seq<T>) {
    forall i, j :: 0 <= i < j < |s| ==> s[i] != s[j]
  }

  /** Array.filter: the elements that pass, in order. */
  function Filter<T(!new)>(s: seq<T>, keep: T -> bool): (r: seq<T>)
    ensures forall x :: x in r <==> x in s && keep(x)
    ensures |r| <= |s|
  {
    if s == [] then [] else (if keep(s[0]) then [s[0]] else []) + Filter(s[1..], keep)
  }

  lemma {:induction false} FilterKeepsNoDuplicates<T(!new)>(s: seq<T>, keep: T -> bool)
    requires NoDuplicates(s)
    ensures NoDuplicates(Filter(s, keep))
    decreases |s|
  {
    if s != [] {
      FilterKeepsNoDuplicates(s[1..], keep);
      var rest := Filter(s[1..], keep);
      assert s[0] !in s[1..] by {
        forall k | 0 <= k < |s[1..]| ensures s[1..][k] != s[0] {
          assert s[1..][k] == s[k + 1];
        }
      }
      assert s[0] !in rest;
    }
  }

  // ---------------------------------------------------------------- timeline list

  /** firstIndex(of:) with the descriptor's ==. */
  function FirstIndexOf(timelines: seq<TimelineDescription>, t: TimelineDescription): (r: Option<nat>)
    ensures r.Some? <==> t in timelines
    ensures r.Some? ==> r.value < |timelines| && timelines[r.value] == t && t !in timelines[..r.value]
  {
    if timelines == [] then None
    else if timelines[0] == t then Some(0)
    else
      match FirstIndexOf(timelines[1..], t)
      case None => None
      case Some(i) =>
        assert timelines[..i + 1] == [timelines[0]] + timelines[1..][..i];
        Some(i + 1)
  }

  /** timeline(with:): the first descriptor with that uuid. */
  function TimelineWith(timelines: seq<TimelineDescription>, uuid: Uuid): (r: Option<TimelineDescription>)
    ensures r.Some? <==> exists d :: d in timelines && d.uuid == uuid
    ensures r.Some? ==> r.value in timelines && r.value.uuid == uuid
    ensures r.Some? ==> exists i :: 0 <= i < |timelines| && timelines[i] == r.value &&
                                   forall k :: 0 <= k < i ==> timelines[k].uuid != uuid
  {
    if timelines == [] then None
    else if timelines[0].uuid == uuid then Some(timelines[0])
    else
      var r := TimelineWith(timelines[1..], uuid);
      if r.Some? then
        var i :| 0 <= i < |timelines[1..]| && timelines[1..][i] == r.value &&
                 forall k :: 0 <= k < i ==> timelines[1..][k].uuid != uuid;
        assert timelines[i + 1] == r.value;
        r
      else r
  }

  /** add(timeline:): an equal descriptor is overwritten in place, a new one is appended. */
  function Added(timelines: seq<TimelineDescription>, t: TimelineDescription): (r: seq<TimelineDescription>)
    ensures t in timelines ==> r == timelines
    ensures t !in timelines ==> r == timelines + [t]
    ensures forall d :: d in r <==> d in timelines || d == t
    ensures |r| == |timelines| + (if t in timelines then 0 else 1)
    ensures NoDuplicates(timelines) ==> NoDuplicates(r)
  {
    match FirstIndexOf(timelines, t)
    case Some(i) =>
      assert timelines[i := t] == timelines;
      timelines[i := t]
    case None => timelines + [t]
  }

  /** remove(timeline:): the first equal descriptor leaves, the rest keep their order. */
  function Removed(timelines: seq<TimelineDescription>, t: TimelineDescription): (r: seq<TimelineDescription>)
    ensures t in timelines ==>
      exists i :: 0 <= i < |timelines| && timelines[i] == t && t !in timelines[..i] && r == timelines[..i] + timelines[i + 1..]
    ensures t in timelines ==> multiset(r) + multiset{t} == multiset(timelines)
    ensures t !in timelines ==> r == timelines
    ensures NoDuplicates(timelines) ==> NoDuplicates(r) && t !in r
  {
    match FirstIndexOf(timelines, t)
    case Some(i) =>
      RemovedAt(timelines, i);
      timelines[..i] + timelines[i + 1..]
    case None => timelines
  }

  /** Dropping the element at `i` takes exactly it out, and keeps a duplicate-free list free of it. */
  lemma RemovedAt(s: seq<TimelineDescription>, i: nat)
    requires i < |s|
    ensures multiset(s[..i] + s[i + 1..]) + multiset{s[i]} == multiset(s)
    ensures NoDuplicates(s) ==> NoDuplicates(s[..i] + s[i + 1..]) && s[i] !in s[..i] + s[i + 1..]
  {
    assert s == s[..i] + [s[i]] + s[i + 1..];
    var r := s[..i] + s[i + 1..];
    if NoDuplicates(s) {
      forall a, b | 0 <= a < b < |r| ensures r[a] != r[b] {
        var a' := if a < i then a else a + 1;
        var b' := if b < i then b else b + 1;
        assert r[a] == s[a'] && r[b] == s[b'];
      }
      forall a | 0 <= a < |r| ensures r[a] != s[i] {
        var a' := if a < i then a else a + 1;
        assert r[a] == s[a'];
      }
    }
  }

  /** The first descriptor equal to `t` becomes `replacement`; absent `t`, nothing changes. */
  function Replaced(timelines: seq<TimelineDescription>, t: TimelineDescription, replacement: TimelineDescription): (r: seq<TimelineDescription>)
    ensures |r| == |timelines|
    ensures t in timelines ==>
      exists i :: 0 <= i < |timelines| && timelines[i] == t && t !in timelines[..i] && r == timelines[i := replacement]
    ensures t in timelines ==> replacement in r
    ensures forall i :: 0 <= i < |r| ==> r[i] == timelines[i] || (timelines[i] == t && r[i] == replacement)
    ensures t !in timelines ==> r == timelines
  {
    match FirstIndexOf(timelines, t)
    case Some(i) =>
      var r := timelines[i := replacement];
      assert r[i] == replacement;
      r
    case None => timelines
  }

  /** change(timeline:name:): the first matching descriptor is renamed when the name differs. */
  function Renamed(timelines: seq<TimelineDescription>, t: TimelineDescription, name: string): (r: seq<TimelineDescription>)
    ensures !(t in timelines && t.name != name) ==> r == timelines
    ensures t in timelines && t.name != name ==>
      exists i :: 0 <= i < |timelines| && timelines[i] == t && t !in timelines[..i] &&
        r == timelines[i := NewTimelineDescription(name, t.uuid, t.password)]
  {
    if t in timelines && t.name != name then Replaced(timelines, t, NewTimelineDescription(name, t.uuid, t.password))
    else timelines
  }

  /** change(timeline:password:): the first matching descriptor gets a new password when it differs. */
  function Repassworded(timelines: seq<TimelineDescription>, t: TimelineDescription, password: string): (r: seq<TimelineDescription>)
    ensures !(t in timelines && t.password != Some(password)) ==> r == timelines
    ensures t in timelines && t.password != Some(password) ==>
      exists i :: 0 <= i < |timelines| && timelines[i] == t && t !in timelines[..i] &&
        r == timelines[i := NewTimelineDescription(t.name, t.uuid, Some(password))]
  {
    if t in timelines && t.password != Some(password) then Replaced(timelines, t, NewTimelineDescription(t.name, t.uuid, Some(password)))
    else timelines
  }

  /** Removing a descriptor that was just added restores the list. */
  lemma RemoveUndoesAdd(timelines: seq<TimelineDescription>, t: TimelineDescription)
    requires t !in timelines
    ensures Removed(Added(timelines, t), t) == timelines
  {
    var added := timelines + [t];
    assert Added(timelines, t) == added;
    var i := FirstIndexOf(added, t).value;
    assert forall k :: 0 <= k < |timelines| ==> added[k] == timelines[k] && added[k] != t;
    assert added[..i] == timelines;
  }

  /** Adding twice is adding once. */
  lemma AddIsIdempotent(timelines: seq<TimelineDescription>, t: TimelineDescription)
    ensures Added(Added(timelines, t), t) == Added(timelines, t)
  {
    var once := Added(timelines, t);
    var i := FirstIndexOf(once, t).value;
    assert once[i := t] == once;
  }

  /**
   * Renaming and changing the password never change which timelines are listed:
   * every position keeps its uuid, and a changed position holds the new name
   * with the old password, or the old name with the new password (an empty
   * one meaning none).
   */
  lemma ChangesKeepIdentities(timelines: seq<TimelineDescription>, t: TimelineDescription, name: string, password: string)
    ensures var r := Renamed(timelines, t, name);
      |r| == |timelines| &&
      (forall i :: 0 <= i < |r| ==> r[i].uuid == timelines[i].uuid) &&
      (forall i :: 0 <= i < |r| && r[i] != timelines[i] ==> r[i] == NewTimelineDescription(name, t.uuid, t.password)) &&
      (t in timelines ==> exists d :: d in r && d.name == name && d.uuid == t.uuid)
    ensures var r := Repassworded(timelines, t, password);
      |r| == |timelines| &&
      (forall i :: 0 <= i < |r| ==> r[i].uuid == timelines[i].uuid) &&
      (forall i :: 0 <= i < |r| && r[i] != timelines[i] ==> r[i] == NewTimelineDescription(t.name, t.uuid, Some(password))) &&
      (t in timelines && password != "" ==> Authorisable(r, t.uuid, password))
  {
    if t in timelines && password != "" && t.password != Some(password) {
      var n := NewTimelineDescription(t.name, t.uuid, Some(password));
      assert n in Repassworded(timelines, t, password);
    }
  }

  /** Some listed descriptor with that uuid opens for `password`. */
  predicate Authorisable(timelines: seq<TimelineDescription>, uuid: Uuid, password: string) {
    exists d :: d in timelines && d.uuid == uuid && d.Authorised(Some(password))
  }

  // ---------------------------------------------------------------- peer lists

  predicate NoSameDuplicates(cs: seq<ClientFacade>) {
    forall i, j :: 0 <= i < j < |cs| ==> !Same(cs[i], cs[j])
  }

  /** What tidying guarantees: no empty list, no peer twice under one timeline. */
  predicate WellFormed(conns: Connections) {
    forall u :: u in conns ==> conns[u] != [] && NoSameDuplicates(conns[u])
  }

  /** The sender `s` is registered under `u`. */
  predicate Registered(conns: Connections, u: Uuid, s: Socket) {
    u in conns && exists f :: f in conns[u] && HasSocket(f, s)
  }

  /** clients.firstIndex(of: client) with the facade's ==. */
  function FirstSameIndex(cs: seq<ClientFacade>, c: ClientFacade): (r: Option<nat>)
    ensures r.None? <==> forall k :: 0 <= k < |cs| ==> !Same(cs[k], c)
    ensures r.Some? ==> r.value < |cs| && Same(cs[r.value], c)
    ensures r.Some? ==> forall k :: 0 <= k < r.value ==> !Same(cs[k], c)
  {
    if cs == [] then None
    else if Same(cs[0], c) then Some(0)
    else
      match FirstSameIndex(cs[1..], c)
      case None => None
      case Some(i) => Some(i + 1)
  }

  /** Step 2 of connect: the client replaces an equal entry, or is appended, or starts the list. */
  function Register(conns: Connections, uuid: Uuid, client: ClientFacade): (r: Connections)
    ensures r.Keys == conns.Keys + {uuid}
    ensures forall u :: u in conns && u != uuid ==> r[u] == conns[u]
    ensures client in r[uuid]
  {
    if uuid in conns then
      var cs := conns[uuid];
      match FirstSameIndex(cs, client)
      case Some(i) =>
        var replaced := cs[i := client];
        assert replaced[i] == client;
        conns[uuid := replaced]
      case None =>
        var appended := cs + [client];
        assert appended[|cs|] == client;
        conns[uuid := appended]
    else conns[uuid := [client]]
  }

  /**
   * After registering, the client is under `uuid` exactly once, every entry not
   * equal to it is still there, and nothing else has arrived.
   */
  lemma RegisterExactlyOnce(conns: Connections, uuid: Uuid, client: ClientFacade)
    requires uuid in conns ==> NoSameDuplicates(conns[uuid])
    ensures var cs := Register(conns, uuid, client)[uuid];
      && NoSameDuplicates(cs)
      && (forall i, j :: 0 <= i < |cs| && 0 <= j < |cs| && Same(cs[i], client) && Same(cs[j], client) ==> i == j)
      && (forall f :: f in cs ==> f == client || (uuid in conns && f in conns[uuid] && !Same(f, client)))
      && (uuid in conns ==> forall f :: f in conns[uuid] && !Same(f, client) ==> f in cs)
  {
    var cs := Register(conns, uuid, client)[uuid];
    if uuid in conns {
      var old_ := conns[uuid];
      match FirstSameIndex(old_, client)
      case Some(i) =>
        assert cs == old_[i := client];
        forall k | 0 <= k < |old_| && k != i ensures !Same(old_[k], client) {
          if k < i { assert !Same(old_[k], old_[i]); } else { assert !Same(old_[i], old_[k]); }
        }
        forall f | f in cs ensures f == client || (f in old_ && !Same(f, client)) {
          var k :| 0 <= k < |cs| && cs[k] == f;
          if k != i { assert f == old_[k]; }
        }
        forall f | f in old_ && !Same(f, client) ensures f in cs {
          var k :| 0 <= k < |old_| && old_[k] == f;
          assert k != i;
          assert cs[k] == f;
        }
      case None =>
        assert cs == old_ + [client];
        forall f | f in cs ensures f == client || (f in old_ && !Same(f, client)) {
          var k :| 0 <= k < |cs| && cs[k] == f;
          if k < |old_| { assert f == old_[k]; }
        }
    }
  }

  /** removeAll(where: { $0 == client }) */
  function RemoveSame(cs: seq<ClientFacade>, client: ClientFacade): (r: seq<ClientFacade>)
    ensures forall f :: f in r <==> f in cs && !Same(f, client)
    ensures NoSameDuplicates(cs) ==> NoSameDuplicates(r)
  {
    if cs == [] then []
    else
      var rest := RemoveSame(cs[1..], client);
      if Same(cs[0], client) then rest
      else
        assert NoSameDuplicates(cs) ==> forall f :: f in rest ==> !Same(cs[0], f) by {
          if NoSameDuplicates(cs) {
            forall f | f in rest ensures !Same(cs[0], f) {
              var k :| 0 <= k < |cs[1..]| && cs[1..][k] == f;
              assert cs[k + 1] == f;
            }
          }
        }
        [cs[0]] + rest
  }

  /** Disconnect's update: every entry equal to the client leaves that timeline's list. */
  function Unregister(conns: Connections, uuid: Uuid, client: ClientFacade): (r: Connections)
    ensures r.Keys == conns.Keys
    ensures forall u :: u in conns && u != uuid ==> r[u] == conns[u]
    ensures uuid in conns ==> forall f :: f in r[uuid] <==> f in conns[uuid] && !Same(f, client)
  {
    if uuid in conns then conns[uuid := RemoveSame(conns[uuid], client)] else conns
  }

  /** The connected entries of one list, in order. */
  function LiveOnly(cs: seq<ClientFacade>, live: set<nat>): (r: seq<ClientFacade>)
    ensures forall f :: f in r <==> f in cs && IsConnected(f, live)
    ensures NoSameDuplicates(cs) ==> NoSameDuplicates(r)
  {
    if cs == [] then []
    else
      var rest := LiveOnly(cs[1..], live);
      if IsConnected(cs[0], live) then
        assert NoSameDuplicates(cs) ==> forall f :: f in rest ==> !Same(cs[0], f) by {
          if NoSameDuplicates(cs) {
            forall f | f in rest ensures !Same(cs[0], f) {
              var k :| 0 <= k < |cs[1..]| && cs[1..][k] == f;
              assert cs[k + 1] == f;
            }
          }
        }
        [cs[0]] + rest
      else rest
  }

  /** tidyConnections: drop disconnected peers, then timelines left with none. */
  function Prune(conns: Connections, live: set<nat>): (r: Connections)
    ensures forall u :: u in r ==> r[u] != [] && forall f :: f in r[u] ==> IsConnected(f, live)
    ensures forall u, f :: u in conns && f in conns[u] && IsConnected(f, live) ==> u in r && f in r[u]
    ensures forall u, f :: u in r && f in r[u] ==> u in conns && f in conns[u]
    ensures (forall u :: u in conns ==> NoSameDuplicates(conns[u])) ==> WellFormed(r)
  {
    map u | u in conns && LiveOnly(conns[u], live) != [] :: LiveOnly(conns[u], live)
  }

  // ---------------------------------------------------------------- authorisation over time

  /** Registering adds at most the new client under its own timeline. */
  lemma RegisteredAfterRegister(conns: Connections, uuid: Uuid, client: ClientFacade, u: Uuid, s: Socket)
    requires uuid in conns ==> NoSameDuplicates(conns[uuid])
    requires Registered(Register(conns, uuid, client), u, s)
    ensures Registered(conns, u, s) || (u == uuid && HasSocket(client, s))
  {
    if u == uuid && !HasSocket(client, s) {
      RegisterExactlyOnce(conns, uuid, client);
      var f :| f in Register(conns, uuid, client)[u] && HasSocket(f, s);
      assert f in conns[uuid];
    }
  }

  /** After a disconnect the client is no longer registered under that timeline, and nobody new is. */
  lemma RegisteredAfterUnregister(conns: Connections, uuid: Uuid, client: ClientFacade, u: Uuid, s: Socket)
    requires Registered(Unregister(conns, uuid, client), u, s)
    ensures Registered(conns, u, s)
    ensures u == uuid ==> !Same(client, ClientFacade(s))
  {
    var f :| f in Unregister(conns, uuid, client)[u] && HasSocket(f, s);
    if u == uuid {
      assert !Same(f, client);
    }
  }

  /** Tidying never registers anyone. */
  lemma RegisteredAfterPrune(conns: Connections, live: set<nat>, u: Uuid, s: Socket)
    requires Registered(Prune(conns, live), u, s)
    ensures Registered(conns, u, s)
  {
    var f :| f in Prune(conns, live)[u] && HasSocket(f, s);
  }

  // ---------------------------------------------------------------- connect decision

  /** The password a connect request offers: its one argument, when that is a string. */
  function SuppliedPassword(m: Messages.Message): Option<string> {
    if |m.arguments| == 1 && m.arguments[0].StringArg? then Some(m.arguments[0].s) else None
  }

  /** The guard shared by connect and disconnect: a sender, a parseable uuid, a known timeline. */
  function Target(timelines: seq<TimelineDescription>, m: Messages.Message, sender: Option<Socket>): (r: Option<(Socket, TimelineDescription)>)
    ensures r.Some? ==> sender == Some(r.value.0) && r.value.1 in timelines
    ensures r.Some? ==> Messages.UuidOf(m).Some? && ParseUuid(Messages.UuidOf(m).value) == Some(r.value.1.uuid)
  {
    if sender.None? then None
    else
      match Messages.UuidOf(m)
      case None => None
      case Some(text) =>
        match ParseUuid(text)
        case None => None
        case Some(uuid) =>
          match TimelineWith(timelines, uuid)
          case None => None
          case Some(t) => Some((sender.value, t))
  }

  datatype ConnectDecision = Ignore | Deny(to: Socket, timeline: TimelineDescription) | Grant(to: Socket, timeline: TimelineDescription)

  /** Step 1 of connect: a passworded timeline needs exactly one string argument equal to its password. */
  function DecideConnect(timelines: seq<TimelineDescription>, m: Messages.Message, sender: Option<Socket>): ConnectDecision {
    match Target(timelines, m, sender)
    case None => Ignore
    case Some((s, t)) =>
      if t.HasPassword() && !(|m.arguments| == 1 && m.arguments[0].StringArg? && Some(m.arguments[0].s) == t.password)
      then Deny(s, t)
      else Grant(s, t)
  }

  /** Connect grants exactly when the timeline's own authorisation check accepts the offered password. */
  lemma GrantIffAuthorised(timelines: seq<TimelineDescription>, m: Messages.Message, sender: Option<Socket>)
    requires Target(timelines, m, sender).Some?
    ensures var t := Target(timelines, m, sender).value.1;
      DecideConnect(timelines, m, sender).Grant? <==> t.Authorised(SuppliedPassword(m))
    ensures !DecideConnect(timelines, m, sender).Ignore?
  {
  }

  /** The peer lists after a connect request. */
  function ConnectionsAfterConnect(timelines: seq<TimelineDescription>, conns: Connections, m: Messages.Message,
                                   sender: Option<Socket>, live: set<nat>): Connections
  {
    match DecideConnect(timelines, m, sender)
    case Grant(s, t) => Prune(Register(conns, t.uuid, ClientFacade(s)), live)
    case _ => conns
  }

  /**
   * The registry's safety property across connects: whoever is registered
   * afterwards was registered before, or is the sender of a granted request,
   * which the timeline's password check accepted.
   */
  lemma ConnectRegistersOnlyAuthorised(timelines: seq<TimelineDescription>, conns: Connections, m: Messages.Message,
                                       sender: Option<Socket>, live: set<nat>, u: Uuid, s: Socket)
    requires WellFormed(conns)
    requires Registered(ConnectionsAfterConnect(timelines, conns, m, sender, live), u, s)
    ensures Registered(conns, u, s) ||
      (DecideConnect(timelines, m, sender).Grant? && sender.Some? && Same(ClientFacade(sender.value), ClientFacade(s)) &&
       var t := DecideConnect(timelines, m, sender).timeline; t.uuid == u && t.Authorised(SuppliedPassword(m)))
  {
    match DecideConnect(timelines, m, sender)
    case Grant(to, t) =>
      GrantIffAuthorised(timelines, m, sender);
      RegisteredAfterPrune(Register(conns, t.uuid, ClientFacade(to)), live, u, s);
      RegisteredAfterRegister(conns, t.uuid, ClientFacade(to), u, s);
    case _ =>
  }

  /** The peer lists after a disconnect request. */
  function ConnectionsAfterDisconnect(timelines: seq<TimelineDescription>, conns: Connections, m: Messages.Message,
                                      sender: Option<Socket>, live: set<nat>): Connections
  {
    match Target(timelines, m, sender)
    case None => conns
    case Some((s, t)) => Prune(Unregister(conns, t.uuid, ClientFacade(s)), live)
  }

  /** Connect and disconnect keep the registry well formed. */
  lemma RequestsKeepWellFormed(timelines: seq<TimelineDescription>, conns: Connections, m: Messages.Message,
                               sender: Option<Socket>, live: set<nat>)
    requires WellFormed(conns)
    ensures WellFormed(ConnectionsAfterConnect(timelines, conns, m, sender, live))
    ensures WellFormed(ConnectionsAfterDisconnect(timelines, conns, m, sender, live))
  {
    match DecideConnect(timelines, m, sender)
    case Grant(s, t) =>
      RegisterExactlyOnce(conns, t.uuid, ClientFacade(s));
    case _ =>
  }

  /** After a disconnect the sender is registered under that timeline no more. */
  lemma DisconnectDeregisters(timelines: seq<TimelineDescription>, conns: Connections, m: Messages.Message,
                              sender: Option<Socket>, live: set<nat>)
    requires Target(timelines, m, sender).Some?
    ensures var t := Target(timelines, m, sender).value.1;
      !Registered(ConnectionsAfterDisconnect(timelines, conns, m, sender, live), t.uuid, sender.value)
    ensures forall u, s :: Registered(ConnectionsAfterDisconnect(timelines, conns, m, sender, live), u, s) ==> Registered(conns, u, s)
  {
    var (to, t) := Target(timelines, m, sender).value;
    var after := ConnectionsAfterDisconnect(timelines, conns, m, sender, live);
    if Registered(after, t.uuid, to) {
      RegisteredAfterPrune(Unregister(conns, t.uuid, ClientFacade(to)), live, t.uuid, to);
      RegisteredAfterUnregister(conns, t.uuid, ClientFacade(to), t.uuid, to);
    }
    forall u, s | Registered(after, u, s) ensures Registered(conns, u, s) {
      RegisteredAfterPrune(Unregister(conns, t.uuid, ClientFacade(to)), live, u, s);
      RegisteredAfterUnregister(conns, t.uuid, ClientFacade(to), u, s);
    }
  }

  // ---------------------------------------------------------------- authorised timelines

  /** The first branch's guard: the message names a timeline that has a peer list, and there is a sender. */
  function ReferencedEntry(conns: Connections, m: Messages.Message, sender: Option<Socket>): (r: Option<Uuid>)
    ensures r.Some? <==>
      && sender.Some?
      && Messages.UuidOf(m).Some?
      && ParseUuid(Messages.UuidOf(m).value).Some?
      && ParseUuid(Messages.UuidOf(m).value).value in conns
    ensures r.Some? ==> r.value == ParseUuid(Messages.UuidOf(m).value).value && r.value in conns
  {
    match Messages.UuidOf(m)
    case None => None
    case Some(text) =>
      match ParseUuid(text)
      case None => None
      case Some(uuid) => if uuid in conns && sender.Some? then Some(uuid) else None
  }

  /**
   * timelinesAuthorised(for:): for a message naming a timeline with a peer list,
   * that timeline alone and only for a registered sender; otherwise every
   * password-free timeline followed by the other timelines the sender is
   * registered under.
   */
  function TimelinesAuthorised(timelines: seq<TimelineDescription>, conns: Connections, m: Messages.Message,
                               sender: Option<Socket>): (r: (bool, seq<TimelineDescription>))
    ensures ReferencedEntry(conns, m, sender).Some? ==>
      var u := ReferencedEntry(conns, m, sender).value;
      if Registered(conns, u, sender.value) && TimelineWith(timelines, u).Some?
      then r == (true, [TimelineWith(timelines, u).value])
      else r == (false, [])
    ensures ReferencedEntry(conns, m, sender).None? ==>
      r.0 && forall d :: d in r.1 <==> d in timelines && (!d.HasPassword() || (sender.Some? && Registered(conns, d.uuid, sender.value)))
    ensures forall d :: d in r.1 && d.HasPassword() ==> sender.Some? && Registered(conns, d.uuid, sender.value)
    ensures forall d :: d in r.1 ==> d in timelines
  {
    match ReferencedEntry(conns, m, sender)
    case Some(u) =>
      if (exists f :: f in conns[u] && HasSocket(f, sender.value)) && TimelineWith(timelines, u).Some?
      then (true, [TimelineWith(timelines, u).value])
      else (false, [])
    case None =>
      var open := Filter(timelines, (d: TimelineDescription) => !d.HasPassword());
      if sender.None? then (true, open)
      else
        var client := ClientFacade(sender.value);
        var connectedKeys := set u | u in conns && exists f :: f in conns[u] && Same(f, client);
        var connected := Filter(timelines, (d: TimelineDescription) => d.uuid in connectedKeys);
        var extra := Filter(connected, (d: TimelineDescription) => d !in open);
        assert forall u :: u in connectedKeys <==> Registered(conns, u, sender.value);
        (true, open + extra)
  }

  /** Without duplicate descriptors in the list, the answer has none either. */
  lemma AuthorisedHasNoDuplicates(timelines: seq<TimelineDescription>, conns: Connections, m: Messages.Message,
                                  sender: Option<Socket>)
    requires NoDuplicates(timelines)
    ensures NoDuplicates(TimelinesAuthorised(timelines, conns, m, sender).1)
  {
    if ReferencedEntry(conns, m, sender).None? {
      var open := Filter(timelines, (d: TimelineDescription) => !d.HasPassword());
      FilterKeepsNoDuplicates(timelines, (d: TimelineDescription) => !d.HasPassword());
      if sender.Some? {
        var client := ClientFacade(sender.value);
        var connectedKeys := set u | u in conns && exists f :: f in conns[u] && Same(f, client);
        var keepConnected := (d: TimelineDescription) => d.uuid in connectedKeys;
        var connected := Filter(timelines, keepConnected);
        var notOpen := (d: TimelineDescription) => d !in open;
        var extra := Filter(connected, notOpen);
        FilterKeepsNoDuplicates(timelines, keepConnected);
        FilterKeepsNoDuplicates(connected, notOpen);
        var r := open + extra;
        assert TimelinesAuthorised(timelines, conns, m, sender).1 == r;
        forall i, j | 0 <= i < j < |r| ensures r[i] != r[j] {
          if j >= |open| && i < |open| {
            assert r[j] in extra;
            assert r[i] in open;
          }
        }
      }
    }
  }
  /** Adding two timelines that share a uuid and renaming the second to the first one's name. */
  lemma RenameMakesRepeat(u: Uuid)
    ensures var a := TimelineDescription("one", u, None);
      var b := TimelineDescription("two", u, None);
      Renamed(Added(Added([], a), b), b, "one") == [a, a]
  {
    var a := TimelineDescription("one", u, None);
    var b := TimelineDescription("two", u, None);
    assert Added([], a) == [a];
    assert b != a && b !in [a];
    assert Added([a], b) == [a, b];
    assert NewTimelineDescription("one", u, None) == a;
    assert Renamed([a, b], b, "one") == Replaced([a, b], b, a);
    assert b !in [a, b][..1];
    assert Replaced([a, b], b, a) == [a, b][1 := a] == [a, a];
  }

  /**
   * The server does not keep its list free of repeats: renaming the second of
   * two timelines that share a uuid to the first one's name makes the two
   * descriptors equal, and a message that names no timeline is then passed on
   * with that descriptor twice.
   */
  lemma RenameCanRepeatAuthorised(u: Uuid, m: Messages.Message)
    ensures var a := TimelineDescription("one", u, None);
      var b := TimelineDescription("two", u, None);
      var ts := Renamed(Added(Added([], a), b), b, "one");
      ts == [a, a] && !NoDuplicates(ts) && TimelinesAuthorised(ts, map[], m, None).1 == [a, a]
  {
    var a := TimelineDescription("one", u, None);
    RenameMakesRepeat(u);
    var keep := (d: TimelineDescription) => !d.HasPassword();
    assert [a, a][1..] == [a];
    assert Filter([a], keep) == [a];
    assert Filter([a, a], keep) == [a, a];
  }


}

=== FILE: response.dfy ===
/**
 * The note responder: builds the reply to a notes request or a note-creation
 * request from the request, an optional dictionary of overrides and a status
 * code.
 */
module Responses {
  import opened Wrappers
  import opened Strings
  import opened Descriptions
  import opened Messages
  import Packets
  import AP = AddressParts

  datatype ResponseKey = TextKey | ColourKey | NotesKey

  /** The override dictionary; its values are untyped, so a value of the wrong kind is ignored. */
  type Overrides = map<ResponseKey, AnyValue>

  /** The note colour: the dictionary's, else a recognised name in the second argument, else green. */
  function NoteColour(m: Message, dict: Option<Overrides>): (c: Colour)
    ensures dict.Some? && ColourKey in dict.value && dict.value[ColourKey].AnyColour? ==> c == dict.value[ColourKey].c
    ensures c != Green ==>
      (dict.Some? && ColourKey in dict.value && dict.value[ColourKey] == AnyColour(c)) ||
      (|m.arguments| >= 2 && m.arguments[1].StringArg? && ColourNamed(m.arguments[1].s) == Some(c))
    ensures !(dict.Some? && ColourKey in dict.value && dict.value[ColourKey].AnyColour?) ==>
      c == (if |m.arguments| >= 2 && m.arguments[1].StringArg? && ColourNamed(m.arguments[1].s).Some?
            then ColourNamed(m.arguments[1].s).value else Green)
  {
    if dict.Some? && ColourKey in dict.value && dict.value[ColourKey].AnyColour? then dict.value[ColourKey].c
    else if |m.arguments| >= 2 && m.arguments[1].StringArg? && ColourNamed(m.arguments[1].s).Some? then
      ColourNamed(m.arguments[1].s).value
    else Green
  }

  /** The note text: the dictionary's, else the first argument when it is a string, else empty. */
  function NoteText(m: Message, dict: Option<Overrides>): (t: string)
    requires |m.arguments| >= 1
    ensures dict.Some? && TextKey in dict.value && dict.value[TextKey].AnyString? ==> t == dict.value[TextKey].s
    ensures !(dict.Some? && TextKey in dict.value && dict.value[TextKey].AnyString?) ==>
      t == (if m.arguments[0].StringArg? then m.arguments[0].s else "")
  {
    if dict.Some? && TextKey in dict.value && dict.value[TextKey].AnyString? then dict.value[TextKey].s
    else if m.arguments[0].StringArg? then m.arguments[0].s
    else ""
  }

  /** The notes to list: the dictionary's, or none. */
  function NotesListed(dict: Option<Overrides>): (ns: seq<NoteDescription>)
    ensures ns != [] ==> dict.Some? && NotesKey in dict.value && dict.value[NotesKey] == AnyNotes(ns)
    ensures dict.Some? && NotesKey in dict.value && dict.value[NotesKey].AnyNotes? ==> ns == dict.value[NotesKey].notes
    ensures !(dict.Some? && NotesKey in dict.value && dict.value[NotesKey].AnyNotes?) ==> ns == []
  {
    if dict.Some? && NotesKey in dict.value && dict.value[NotesKey].AnyNotes? then dict.value[NotesKey].notes else []
  }

  /**
   * response(for:withDictionary:andCode:): a reply for notes and note requests
   * only. `status` and `version` are the packet's scalars.
   */
  function ResponseFor(m: Message, dict: Option<Overrides>, code: int, status: string, version: string): (r: Option<Reply>)
    ensures r.Some? <==> Type(m) == ReceiveType.Notes || Type(m) == ReceiveType.Note
    ensures r.Some? ==>
      HasPrefix(r.value.addressPattern, AP.Response) &&
      AddressWithoutResponse(r.value.addressPattern) == m.addressPattern && r.value.packet.addressPattern == m.addressPattern &&
      r.value.packet.status == status && r.value.packet.version == version
    ensures Type(m) == ReceiveType.Notes ==> r.value.packet.data == Packets.Notes(NotesListed(dict))
    ensures Type(m) == ReceiveType.Note ==>
      |m.arguments| >= 1 && r.value.packet.data == Packets.Note(NoteDescription(NoteText(m, dict), NoteColour(m, dict), code))
  {
    match Type(m)
    case Notes => Some(ReplyTo(AP.Application, m, status, version, Packets.Notes(NotesListed(dict))))
    case Note =>
      Some(ReplyTo(AP.Application, m, status, version, Packets.Note(NoteDescription(NoteText(m, dict), NoteColour(m, dict), code))))
    case _ => None
  }

  /** Without overrides a note request is answered with its own text, the colour it names (green by default) and the code. */
  lemma NoteEchoesRequest(m: Message, code: int, status: string, version: string)
    requires Type(m) == ReceiveType.Note
    ensures var r := ResponseFor(m, None, code, status, version).value;
      r.packet.data.Note? && r.packet.data.note.note == m.arguments[0].s && r.packet.data.note.code == code &&
      (|m.arguments| >= 2 && m.arguments[1].StringArg? && ColourNamed(m.arguments[1].s).Some? ==>
         r.packet.data.note.colour == ColourNamed(m.arguments[1].s).value) &&
      (!(|m.arguments| >= 2 && m.arguments[1].StringArg? && ColourNamed(m.arguments[1].s).Some?) ==>
         r.packet.data.note.colour == Green)
  {
  }

  /** An override is used only when its value has the kind its key asks for. */
  predicate WellTypedOverride(k: ResponseKey, v: AnyValue) {
    match k
    case TextKey => v.AnyString?
    case ColourKey => v.AnyColour?
    case NotesKey => v.AnyNotes?
  }

  /** A dictionary whose every value has the wrong kind answers like no dictionary at all. */
  lemma IllTypedOverridesAreIgnored(m: Message, dict: Overrides, code: int, status: string, version: string)
    requires forall k :: k in dict ==> !WellTypedOverride(k, dict[k])
    ensures ResponseFor(m, Some(dict), code, status, version) == ResponseFor(m, None, code, status, version)
  {
    assert NoteColour(m, Some(dict)) == NoteColour(m, None) by {
      assert !(ColourKey in dict && dict[ColourKey].AnyColour?) by {
        if ColourKey in dict { assert !WellTypedOverride(ColourKey, dict[ColourKey]); }
      }
    }
    assert NotesListed(Some(dict)) == NotesListed(None) by {
      assert !(NotesKey in dict && dict[NotesKey].AnyNotes?) by {
        if NotesKey in dict { assert !WellTypedOverride(NotesKey, dict[NotesKey]); }
      }
    }
    if |m.arguments| >= 1 {
      assert NoteText(m, Some(dict)) == NoteText(m, None) by {
        assert !(TextKey in dict && dict[TextKey].AnyString?) by {
          if TextKey in dict { assert !WellTypedOverride(TextKey, dict[TextKey]); }
        }
      }
    }
  }

  /** Well-typed text and colour overrides win over whatever the request carries. */
  lemma OverridesWin(m: Message, text: string, colour: Colour, code: int, status: string, version: string)
    requires Type(m) == ReceiveType.Note
    ensures var dict := map[TextKey := AnyString(text), ColourKey := AnyColour(colour)];
      ResponseFor(m, Some(dict), code, status, version).value.packet.data == Packets.Note(NoteDescription(text, colour, code))
  {
  }

  /** An address ending in "/note" selects the note payload. */
  lemma NoteAddressSelectsNote(address: string)
    requires HasSuffix(address, AP.Note)
    ensures Packets.SelectedKind(AP.Application, address) == Packets.NoteKind
  {
    assert address[|address| - 1] == 'e';
    assert (AP.Application + AP.Timelines)[|AP.Timelines| - 1] == 's';
    assert AP.Connect[|AP.Connect| - 1] == 't';
  }

  /** An address ending in "/notes" selects no payload at all. */
  lemma NotesAddressSelectsNothing(address: string)
    requires HasSuffix(address, AP.Notes)
    ensures Packets.SelectedKind(AP.Application, address) == Packets.EmptyKind
  {
    assert address[|address| - 3] == 't' && address[|address| - 1] == 's';
    assert (AP.Application + AP.Timelines)[|AP.Timelines| - 3] == 'n';
    assert AP.Connect[|AP.Connect| - 1] == 't';
    assert AP.Note[|AP.Note| - 1] == 'e';
  }

  /** The note reply survives the packet codec unchanged. */
  lemma NoteReplyRoundTrips(m: Message, dict: Option<Overrides>, code: int, status: string, version: string)
    requires Type(m) == ReceiveType.Note
    ensures var p := ResponseFor(m, dict, code, status, version).value.packet;
      Packets.Decode(AP.Application, Packets.Encode(p)) == Ok(p)
  {
    var p := ResponseFor(m, dict, code, status, version).value.packet;
    NoteAddressSelectsNote(p.addressPattern);
    Packets.RoundTrip(AP.Application, p);
  }

  /**
   * The notes reply does not survive the packet codec: the decoder selects no
   * payload for a notes address, so the listed notes are dropped.
   */
  lemma NotesReplyLosesNotes(m: Message, dict: Option<Overrides>, code: int, status: string, version: string)
    requires Type(m) == ReceiveType.Notes
    ensures var p := ResponseFor(m, dict, code, status, version).value.packet;
      Packets.Decode(AP.Application, Packets.Encode(p)) == Ok(p.(data := Packets.Empty))
  {
    var p := ResponseFor(m, dict, code, status, version).value.packet;
    NotesAddressSelectsNothing(p.addressPattern);
  }
}

=== FILE: server.dfy ===
/**
 * The server: its timeline list, its per-timeline peer lists, and the
 * handling of incoming requests. Replies are appended to `replies`
 * (the socket they go to and the message sent) and delegate notifications
 * to `events`, in the order the server makes them.
 */
module Servers {
  import opened Wrappers
  import opened Uuids
  import opened Descriptions
  import opened ClientFacades
  import opened Registry
  import Messages
  import Packets
  import AP = AddressParts

  /** The one server status. */
  const Online: string := "online"

  datatype Outgoing = Outgoing(to: Socket, reply: Messages.Reply)

  datatype ServerEvent =
    | TimelinesUpdated(timelines: seq<TimelineDescription>)
    | ClientsUpdated(clients: seq<ClientFacade>, timeline: TimelineDescription)
    | MessageReceived(message: Messages.Message, forTimelines: seq<TimelineDescription>)

  /** The reply a request gets, addressed to its response address. */
  function ReplyFor(m: Messages.Message, version: string, data: Packets.Data): Messages.Reply {
    Messages.ReplyTo(AP.Application, m, Online, version, data)
  }

  /** The peers listed under `uuid`, or none. */
  function ClientsOf(conns: Connections, uuid: Uuid): seq<ClientFacade> {
    if uuid in conns then conns[uuid] else []
  }

  /** The delegate notification a non-protocol message produces, if any. */
  function ReceivedEvent(timelines: seq<TimelineDescription>, conns: Connections, m: Messages.Message,
                         sender: Option<Socket>): (r: seq<ServerEvent>)
    ensures |r| <= 1
    ensures r != [] ==>
      r[0].MessageReceived? && r[0].message == m && r[0].forTimelines != [] &&
      forall d :: d in r[0].forTimelines && d.HasPassword() ==> sender.Some? && Registered(conns, d.uuid, sender.value)
  {
    var (ok, ds) := TimelinesAuthorised(timelines, conns, m, sender);
    if ok && ds != [] then [MessageReceived(m, ds)] else []
  }

  /** A message sent to a password-protected timeline is only passed on for a registered sender. */
  lemma ReceivedOnlyForRegistered(timelines: seq<TimelineDescription>, conns: Connections, m: Messages.Message,
                                  sender: Option<Socket>, d: TimelineDescription)
    requires d.HasPassword() && d in timelines
    requires exists e :: e in ReceivedEvent(timelines, conns, m, sender) && d in e.forTimelines
    ensures sender.Some? && Registered(conns, d.uuid, sender.value)
  {
  }

  class Server {
    var timelines: seq<TimelineDescription>
    var connections: Connections
    var replies: seq<Outgoing>
    var events: seq<ServerEvent>
    const version: string

    /** Tidying keeps every peer list non-empty and free of equal entries. */
    ghost predicate Valid()
      reads this
    {
      WellFormed(connections)
    }

    constructor (version: string)
      ensures Valid()
      ensures timelines == [] && connections == map[] && replies == [] && events == []
      ensures this.version == version
    {
      timelines := [];
      connections := map[];
      replies := [];
      events := [];
      this.version := version;
    }

    method Add(t: TimelineDescription)
      modifies this
      ensures timelines == Added(old(timelines), t)
      ensures events == old(events) + [TimelinesUpdated(timelines)]
      ensures connections == old(connections) && replies == old(replies)
    {
      match FirstIndexOf(timelines, t) {
        case Some(i) => timelines := timelines[i := t];
        case None => timelines := timelines + [t];
      }
      events := events + [TimelinesUpdated(timelines)];
    }

    method Remove(t: TimelineDescription)
      modifies this
      ensures timelines == Removed(old(timelines), t)
      ensures events == old(events) + (if t in old(timelines) then [TimelinesUpdated(timelines)] else [])
      ensures connections == old(connections) && replies == old(replies)
    {
      match FirstIndexOf(timelines, t)
      case Some(i) =>
        timelines := timelines[..i] + timelines[i + 1..];
        events := events + [TimelinesUpdated(timelines)];
      case None =>
    }

    method ChangeName(t: TimelineDescription, name: string)
      modifies this
      ensures timelines == Renamed(old(timelines), t, name)
      ensures events == old(events) + (if t in old(timelines) && t.name != name then [TimelinesUpdated(timelines)] else [])
      ensures connections == old(connections) && replies == old(replies)
    {
      if t.name != name {
        match FirstIndexOf(timelines, t)
        case Some(i) =>
          timelines := timelines[i := NewTimelineDescription(name, t.uuid, t.password)];
          events := events + [TimelinesUpdated(timelines)];
        case None =>
      }
    }

    method ChangePassword(t: TimelineDescription, password: string)
      modifies this
      ensures timelines == Repassworded(old(timelines), t, password)
      ensures events == old(events) + (if t in old(timelines) && t.password != Some(password) then [TimelinesUpdated(timelines)] else [])
      ensures connections == old(connections) && replies == old(replies)
    {
      if t.password != Some(password) {
        match FirstIndexOf(timelines, t)
        case Some(i) =>
          timelines := timelines[i := NewTimelineDescription(t.name, t.uuid, Some(password))];
          events := events + [TimelinesUpdated(timelines)];
        case None =>
      }
    }

    /** timeline(with:) */
    function TimelineNamed(uuid: Uuid): (r: Option<TimelineDescription>)
      reads this
      ensures r.Some? <==> exists d :: d in timelines && d.uuid == uuid
      ensures r.Some? ==> r.value in timelines && r.value.uuid == uuid
    {
      TimelineWith(timelines, uuid)
    }

    /** timelines(with:): the whole list, to the sender. */
    method SendTimelines(m: Messages.Message, sender: Option<Socket>)
      modifies this
      ensures replies == old(replies) +
        (if sender.Some? then [Outgoing(sender.value, ReplyFor(m, version, Packets.Timelines(timelines)))] else [])
      ensures timelines == old(timelines) && connections == old(connections) && events == old(events)
    {
      if sender.Some? {
        replies := replies + [Outgoing(sender.value, ReplyFor(m, version, Packets.Timelines(timelines)))];
      }
    }

    /** tidyConnections: each list keeps its connected peers, then empty lists go. */
    method TidyConnections(live: set<nat>)
      requires forall u :: u in connections ==> NoSameDuplicates(connections[u])
      modifies this
      ensures connections == Prune(old(connections), live)
      ensures Valid()
      ensures timelines == old(timelines) && replies == old(replies) && events == old(events)
    {
      var pending := connections.Keys;
      while pending != {}
        invariant pending <= connections.Keys && connections.Keys == old(connections).Keys
        invariant forall u :: u in pending ==> connections[u] == old(connections)[u]
        invariant forall u :: u in connections && u !in pending ==> connections[u] == LiveOnly(old(connections)[u], live)
        invariant timelines == old(timelines) && replies == old(replies) && events == old(events)
        decreases pending
      {
        var u :| u in pending;
        connections := connections[u := LiveOnly(connections[u], live)];
        pending := pending - {u};
      }
      connections := map u | u in connections && connections[u] != [] :: connections[u];
    }

    method Connect(m: Messages.Message, sender: Option<Socket>, live: set<nat>)
      requires Valid()
      modifies this
      ensures Valid()
      ensures connections == ConnectionsAfterConnect(timelines, old(connections), m, sender, live)
      ensures timelines == old(timelines)
      ensures match DecideConnect(timelines, m, sender)
        case Ignore => replies == old(replies) && events == old(events)
        case Deny(to, t) =>
          replies == old(replies) + [Outgoing(to, ReplyFor(m, version, Packets.Connect(StatusDescription(Unauthorised, t.uuid))))] &&
          events == old(events)
        case Grant(to, t) =>
          replies == old(replies) + [Outgoing(to, ReplyFor(m, version, Packets.Connect(StatusDescription(Authorised, t.uuid))))] &&
          events == old(events) + [ClientsUpdated(ClientsOf(connections, t.uuid), t)]
    {
      match DecideConnect(timelines, m, sender)
      case Ignore =>
      case Deny(to, t) =>
        replies := replies + [Outgoing(to, ReplyFor(m, version, Packets.Connect(StatusDescription(Unauthorised, t.uuid))))];
      case Grant(to, t) =>
        RegisterExactlyOnce(connections, t.uuid, ClientFacade(to));
        connections := Register(connections, t.uuid, ClientFacade(to));
        TidyConnections(live);
        replies := replies + [Outgoing(to, ReplyFor(m, version, Packets.Connect(StatusDescription(Authorised, t.uuid))))];
        events := events + [ClientsUpdated(ClientsOf(connections, t.uuid), t)];
    }

    method Disconnect(m: Messages.Message, sender: Option<Socket>, live: set<nat>)
      requires Valid()
      modifies this
      ensures Valid()
      ensures connections == ConnectionsAfterDisconnect(timelines, old(connections), m, sender, live)
      ensures timelines == old(timelines) && replies == old(replies)
      ensures match Target(timelines, m, sender)
        case None => events == old(events)
        case Some((to, t)) => events == old(events) + [ClientsUpdated(ClientsOf(connections, t.uuid), t)]
    {
      match Target(timelines, m, sender)
      case None =>
      case Some((to, t)) =>
        connections := Unregister(connections, t.uuid, ClientFacade(to));
        TidyConnections(live);
        events := events + [ClientsUpdated(ClientsOf(connections, t.uuid), t)];
    }

    /**
     * What process(message:) does with a message, by its type: answer a
     * timelines request, decide a connect request, carry out a disconnect
     * request, or pass anything else to the delegate. The timelines never change.
     */
    twostate predicate Handled(m: Messages.Message, sender: Option<Socket>, live: set<nat>)
      reads this
    {
      var ty := Messages.Type(m);
      timelines == old(timelines) &&
      if ty == Messages.ReceiveType.Timelines then
        connections == old(connections) && events == old(events) &&
        replies == old(replies) + (if sender.Some? then [Outgoing(sender.value, ReplyFor(m, version, Packets.Timelines(timelines)))] else [])
      else if ty == Messages.ReceiveType.Connect then
        connections == ConnectionsAfterConnect(timelines, old(connections), m, sender, live) &&
        match DecideConnect(timelines, m, sender)
        case Ignore => replies == old(replies) && events == old(events)
        case Deny(to, t) =>
          replies == old(replies) + [Outgoing(to, ReplyFor(m, version, Packets.Connect(StatusDescription(Unauthorised, t.uuid))))] &&
          events == old(events)
        case Grant(to, t) =>
          replies == old(replies) + [Outgoing(to, ReplyFor(m, version, Packets.Connect(StatusDescription(Authorised, t.uuid))))] &&
          events == old(events) + [ClientsUpdated(ClientsOf(connections, t.uuid), t)]
      else if ty == Messages.ReceiveType.Disconnect then
        connections == ConnectionsAfterDisconnect(timelines, old(connections), m, sender, live) &&
        replies == old(replies) &&
        match Target(timelines, m, sender)
        case None => events == old(events)
        case Some((to, t)) => events == old(events) + [ClientsUpdated(ClientsOf(connections, t.uuid), t)]
      else
        connections == old(connections) && replies == old(replies) &&
        events == old(events) + ReceivedEvent(timelines, connections, m, sender)
    }

    /** process(message:): the three requests the server answers, anything else to the delegate. */
    method Process(m: Messages.Message, sender: Option<Socket>, live: set<nat>)
      requires Valid()
      modifies this
      ensures Valid()
      ensures Handled(m, sender, live)
    {
      match Messages.Type(m)
      case Timelines => SendTimelines(m, sender);
      case Connect => Connect(m, sender, live);
      case Disconnect => Disconnect(m, sender, live);
      case _ => events := events + ReceivedEvent(timelines, connections, m, sender);
    }

    /** take(message:): only messages for this protocol are processed, without the application prefix. */
    method Take(m: Messages.Message, sender: Option<Socket>, live: set<nat>)
      requires Valid()
      modifies this
      ensures Valid()
      ensures Messages.IsForStamp(m) ==> Handled(m, sender, live)
      ensures !Messages.IsForStamp(m) ==>
        timelines == old(timelines) && connections == old(connections) && replies == old(replies) && events == old(events)
    {
      if Messages.IsForStamp(m) {
        var readdressed := Messages.Message(Messages.WithoutApplication(AP.Application, m.addressPattern), m.arguments);
        Messages.EmptyApplicationIsIdentity(m.addressPattern);
        assert readdressed == m;
        Process(readdressed, sender, live);
      }
    }
  }
}

=== FILE: server_facade.dfy ===
/**
 * A client's view of one server: its address and the timelines it lists,
 * kept in step with the server's descriptor list.
 */
module ServerFacades {
  import opened Wrappers
  import opened Descriptions
  import opened Timelines
  import Packets
  import AP = AddressParts

  /** Some descriptor carries the timeline's uuid. */
  ghost predicate Named(descriptions: seq<TimelineDescription>, t: Timeline) {
    exists d :: d in descriptions && d.uuid == t.uniqueID
  }

  /** No other timeline of `ts` carries t's uuid. */
  ghost predicate OnlyOneWithId(ts: set<Timeline>, t: Timeline) {
    forall u :: u in ts && u.uniqueID == t.uniqueID ==> u == t
  }

  /** Every descriptor has a timeline with its uuid. */
  ghost predicate Covers(ts: set<Timeline>, descriptions: seq<TimelineDescription>) {
    forall d :: d in descriptions ==> exists t :: t in ts && t.uniqueID == d.uuid
  }

  /** Every timeline shows some descriptor with its uuid. */
  ghost predicate Shows(ts: set<Timeline>, descriptions: seq<TimelineDescription>)
    reads ts
  {
    forall t {:trigger t.Showing()} :: t in ts ==>
      exists d :: d in descriptions && t.uniqueID == d.uuid && t.Showing() == Shown(d.name, d.HasPassword())
  }

  /** The timeline carries the descriptor's uuid and shows its name and password flag. */
  ghost predicate ShowsDescription(t: Timeline, d: TimelineDescription)
    reads t
  {
    t.uniqueID == d.uuid && t.Showing() == Shown(d.name, d.HasPassword())
  }

  class ServerFacade {
    var timelines: set<Timeline>
    var name: string
    const host: string
    const port: int
    /** How many times the delegate has been told the timelines changed. */
    var notifications: nat

    constructor (host: string, port: int)
      ensures this.host == host && name == host
      ensures this.port == (if port == 0 then AP.PortNumber else port)
      ensures timelines == {} && notifications == 0
    {
      this.host := host;
      this.port := if port == 0 then AP.PortNumber else port;
      name := host;
      timelines := {};
      notifications := 0;
    }

    /** stop(): the listed timelines are forgotten. */
    method Stop()
      modifies this
      ensures timelines == {} && name == old(name) && notifications == old(notifications)
    {
      timelines := {};
    }

    /** timeline(with:): some listed timeline with that uuid, if any. */
    method TimelineWith(uuid: string) returns (r: Option<Timeline>)
      ensures r.Some? ==> r.value in timelines && r.value.uniqueID == uuid
      ensures r.None? ==> forall t :: t in timelines ==> t.uniqueID != uuid
    {
      if t :| t in timelines && t.uniqueID == uuid {
        r := Some(t);
      } else {
        r := None;
      }
    }

    /**
     * One step of update(with:): the timeline listed under the descriptor's
     * uuid, refreshed from it, or else a new timeline made from it.
     */
    method Absorb(d: TimelineDescription) returns (t: Timeline)
      modifies timelines
      ensures t in timelines || fresh(t)
      ensures t.uniqueID == d.uuid && t.Showing() == Shown(d.name, d.HasPassword())
      ensures forall u :: u in timelines && u != t ==> unchanged(u)
      ensures forall u :: u in timelines && u.uniqueID == d.uuid && OnlyOneWithId(timelines, u) ==> u == t
    {
      var existing := TimelineWith(d.uuid);
      if existing.Some? {
        t := existing.value;
        var before := t.Showing();
        var _ := t.Update(DictionaryOf(d));
        UpdateFromDescriptionShowsIt(before, d);
      } else {
        t := new Timeline.FromDescription(d);
      }
    }

    /**
     * The loop of update(with:): for each descriptor, the timeline already
     * listed under its uuid (refreshed from it) or a new one made from it.
     */
    method Collect(descriptions: seq<TimelineDescription>) returns (newTimelines: set<Timeline>)
      modifies timelines
      ensures forall t :: t in newTimelines ==> t in timelines || fresh(t)
      ensures Covers(newTimelines, descriptions) && Shows(newTimelines, descriptions)
      ensures forall t :: t in timelines && t !in newTimelines ==> unchanged(t)
      ensures forall t :: t in timelines && Named(descriptions, t) && OnlyOneWithId(timelines, t) ==> t in newTimelines
    {
      newTimelines := {};
      ghost var shownBy: map<Timeline, nat> := map[];
      ghost var cover: seq<Timeline> := [];
      var i := 0;
      while i < |descriptions|
        invariant 0 <= i <= |descriptions| && |cover| == i
        invariant newTimelines == shownBy.Keys
        invariant forall t :: t in newTimelines ==> t in timelines || fresh(t)
        invariant forall k {:trigger cover[k]} :: 0 <= k < i ==> cover[k] in newTimelines && cover[k].uniqueID == descriptions[k].uuid
        invariant forall t :: t in shownBy ==> shownBy[t] < i && ShowsDescription(t, descriptions[shownBy[t]])
        invariant forall t :: t in timelines && t !in newTimelines ==> unchanged(t)
        invariant forall t, k :: t in timelines && 0 <= k < i && descriptions[k].uuid == t.uniqueID && OnlyOneWithId(timelines, t) ==> t in newTimelines
      {
        var d := descriptions[i];
        var t := Absorb(d);
        ghost var covered := cover;
        ghost var collected := newTimelines;
        newTimelines := newTimelines + {t};
        shownBy := shownBy[t := i];
        cover := cover + [t];
        forall k | 0 <= k < i ensures cover[k] in newTimelines && cover[k].uniqueID == descriptions[k].uuid {
          assert cover[k] == covered[k];
        }
        forall u, k | u in timelines && 0 <= k <= i && descriptions[k].uuid == u.uniqueID && OnlyOneWithId(timelines, u)
          ensures u in newTimelines
        {
          if k < i { assert u in collected; } else { assert u == t; }
        }
        i := i + 1;
      }
      forall e | e in descriptions ensures exists t :: t in newTimelines && t.uniqueID == e.uuid {
        var k :| 0 <= k < |descriptions| && descriptions[k] == e;
        assert cover[k] in newTimelines;
      }
      forall t | t in newTimelines
        ensures exists d :: d in descriptions && t.uniqueID == d.uuid && t.Showing() == Shown(d.name, d.HasPassword())
      {
        assert ShowsDescription(t, descriptions[shownBy[t]]);
      }
    }

    /** update(with:): the collected timelines replace the list, and the delegate is told. */
    method Update(descriptions: seq<TimelineDescription>)
      modifies this, timelines
      ensures forall t :: t in timelines ==> t in old(timelines) || fresh(t)
      ensures Covers(timelines, descriptions) && Shows(timelines, descriptions)
      ensures forall t :: t in old(timelines) && t !in timelines ==> unchanged(t)
      ensures forall t :: t in old(timelines) && Named(descriptions, t) && OnlyOneWithId(old(timelines), t) ==> t in timelines
      ensures name == old(name) && notifications == old(notifications) + 1
    {
      timelines := Collect(descriptions);
      notifications := notifications + 1;
    }

    /**
     * The handler of a timelines request: a timelines payload refreshes the
     * list and is handed on; any other payload is ignored.
     */
    method OnTimelinesReply(data: Packets.Data) returns (delivered: Option<seq<TimelineDescription>>)
      modifies this, timelines
      ensures data.Timelines? ==> delivered == Some(data.timelines) && notifications == old(notifications) + 1
      ensures data.Timelines? ==> Covers(timelines, data.timelines) && Shows(timelines, data.timelines)
      ensures !data.Timelines? ==> delivered == None && unchanged(this) && unchanged(old(timelines))
    {
      match data {
        case Timelines(ds) =>
          Update(ds);
          delivered := Some(ds);
        case _ =>
          delivered := None;
      }
    }
  }
}

=== FILE: strings.dfy ===
/** String helpers shared by the address router and the packet codec. */
module Strings {

  predicate HasPrefix(s: string, p: string) {
    |p| <= |s| && s[..|p|] == p
  }

  predicate HasSuffix(s: string, p: string) {
    |p| <= |s| && s[|s| - |p|..] == p
  }

  /** The pieces of `s` between its '/' separators, in order. */
  function Split(s: string): (r: seq<string>)
    ensures |r| >= 1
    ensures forall i :: 0 <= i < |r| ==> '/' !in r[i]
    decreases |s|
  {
    if |s| == 0 then [""]
    else
      var rest := Split(s[1..]);
      if s[0] == '/' then [""] + rest
      else [[s[0]] + rest[0]] + rest[1..]
  }

  /** A string without '/' is a single piece. */
  lemma {:induction false} SplitSlashFree(s: string)
    requires '/' !in s
    ensures Split(s) == [s]
    decreases |s|
  {
    if |s| > 0 {
      SplitSlashFree(s[1..]);
      assert [s[0]] + s[1..] == s;
    }
  }

  /** A slash-free first piece followed by '/' splits off as the first segment. */
  lemma {:induction false} SplitCons(a: string, b: string)
    requires '/' !in a
    ensures Split(a + "/" + b) == [a] + Split(b)
    decreases |a|
  {
    if |a| == 0 {
      assert a + "/" + b == ['/'] + b;
      assert (['/'] + b)[1..] == b;
    } else {
      var s := a + "/" + b;
      assert s[1..] == a[1..] + "/" + b;
      SplitCons(a[1..], b);
      assert [a[0]] + a[1..] == a;
    }
  }

  /** A '/' between two strings separates their pieces: a's pieces, then b's. */
  lemma {:induction false} SplitAppend(a: string, b: string)
    ensures Split(a + "/" + b) == Split(a) + Split(b)
    decreases |a|
  {
    if |a| == 0 {
      assert a + "/" + b == ['/'] + b;
      assert (['/'] + b)[1..] == b;
    } else {
      var s := a + "/" + b;
      assert s[1..] == a[1..] + "/" + b;
      SplitAppend(a[1..], b);
    }
  }

  /** The same, for a suffix that brings its own leading '/'. */
  lemma SplitAppendSlashed(a: string, c: string)
    requires |c| >= 1 && c[0] == '/'
    ensures Split(a + c) == Split(a) + Split(c[1..])
  {
    assert a + c == a + "/" + c[1..];
    SplitAppend(a, c[1..]);
  }
}

=== FILE: timeline.dfy ===
/**
 * A timeline as a client sees it: a mutable record refreshed from the
 * server's descriptors through a dictionary of display values.
 */
module Timelines {
  import opened Descriptions

  /** The dictionary keys the update reads. */
  const DisplayNameKey: string := "displayName"
  const HasPasscodeKey: string := "hasPasscode"

  /** The dictionary an update receives; values of the wrong kind are ignored. */
  type Dictionary = map<string, AnyValue>

  /** The part of a timeline an update may change. */
  datatype Shown = Shown(name: string, hasPasscode: bool)

  /** update(with:): a string display name and a boolean passcode flag replace the current values. */
  function Updated(s: Shown, dict: Dictionary): (r: Shown)
    ensures DisplayNameKey in dict && dict[DisplayNameKey].AnyString? ==> r.name == dict[DisplayNameKey].s
    ensures !(DisplayNameKey in dict && dict[DisplayNameKey].AnyString?) ==> r.name == s.name
    ensures HasPasscodeKey in dict && dict[HasPasscodeKey].AnyBool? ==> r.hasPasscode == dict[HasPasscodeKey].b
    ensures !(HasPasscodeKey in dict && dict[HasPasscodeKey].AnyBool?) ==> r.hasPasscode == s.hasPasscode
  {
    var name := if DisplayNameKey in dict && dict[DisplayNameKey].AnyString? then dict[DisplayNameKey].s else s.name;
    var passcode := if HasPasscodeKey in dict && dict[HasPasscodeKey].AnyBool? then dict[HasPasscodeKey].b else s.hasPasscode;
    Shown(name, passcode)
  }

  /** Applying the same dictionary twice is applying it once. */
  lemma UpdateIsIdempotent(s: Shown, dict: Dictionary)
    ensures Updated(Updated(s, dict), dict) == Updated(s, dict)
  {
  }

  /** The dictionary a descriptor is turned into for an update. */
  function DictionaryOf(d: TimelineDescription): (dict: Dictionary)
    ensures dict.Keys == {DisplayNameKey, HasPasscodeKey}
    ensures dict[DisplayNameKey] == AnyString(d.name) && dict[HasPasscodeKey] == AnyBool(d.HasPassword())
  {
    map[DisplayNameKey := AnyString(d.name), HasPasscodeKey := AnyBool(d.HasPassword())]
  }

  /** Whatever was shown before, an update from a descriptor shows exactly that descriptor. */
  lemma UpdateFromDescriptionShowsIt(s: Shown, d: TimelineDescription)
    ensures Updated(s, DictionaryOf(d)) == Shown(d.name, d.HasPassword())
  {
  }

  class Timeline {
    var name: string
    /** Never reassigned after initialisation. */
    const uniqueID: string
    var hasPasscode: bool

    /** The timeline a descriptor stands for. */
    constructor FromDescription(d: TimelineDescription)
      ensures name == d.name && uniqueID == d.uuid && hasPasscode == d.HasPassword()
    {
      name := d.name;
      uniqueID := d.uuid;
      hasPasscode := d.HasPassword();
    }

    /** What the timeline shows. */
    function Showing(): Shown
      reads this
    {
      Shown(name, hasPasscode)
    }

    /** update(with:): applies the dictionary and reports whether anything changed. */
    method Update(dict: Dictionary) returns (didUpdate: bool)
      modifies this
      ensures Showing() == Updated(old(Showing()), dict)
      ensures didUpdate <==> Showing() != old(Showing())
    {
      didUpdate := false;
      if DisplayNameKey in dict && dict[DisplayNameKey].AnyString? && dict[DisplayNameKey].s != name {
        name := dict[DisplayNameKey].s;
        didUpdate := true;
      }
      if HasPasscodeKey in dict && dict[HasPasscodeKey].AnyBool? && hasPasscode != dict[HasPasscodeKey].b {
        hasPasscode := dict[HasPasscodeKey].b;
        didUpdate := true;
      }
    }
  }
}

=== FILE: uuids.dfy ===
/**
 * Foundation's UUID as the protocol sees it: parsed from text with
 * UUID(uuidString:) (either case accepted) and written back as its upper-case
 * uuidString, which is also how JSON carries it.
 */
module Uuids {
  import opened Wrappers

  predicate IsHexDigit(c: char) {
    '0' <= c <= '9' || 'a' <= c <= 'f' || 'A' <= c <= 'F'
  }

  predicate IsHyphenPosition(i: int) {
    i == 8 || i == 13 || i == 18 || i == 23
  }

  /** The 8-4-4-4-12 hexadecimal layout that UUID(uuidString:) accepts. */
  predicate IsUuidString(s: string) {
    |s| == 36 &&
    forall i :: 0 <= i < 36 ==> if IsHyphenPosition(i) then s[i] == '-' else IsHexDigit(s[i])
  }

  predicate IsCanonical(s: string) {
    IsUuidString(s) && forall i :: 0 <= i < |s| ==> !('a' <= s[i] <= 'f')
  }

  /** A UUID, represented by its canonical upper-case text. */
  type Uuid = s: string | IsCanonical(s)
    witness "00000000-0000-0000-0000-000000000000"

  function UpperHex(c: char): char {
    if 'a' <= c <= 'f' then (c as int - 32) as char else c
  }

  /** UUID(uuidString:): None unless `s` has the UUID layout; otherwise its canonical form. */
  function ParseUuid(s: string): (r: Option<Uuid>)
    ensures r.Some? <==> IsUuidString(s)
    ensures r.Some? ==> forall i :: 0 <= i < 36 ==> r.value[i] == UpperHex(s[i])
  {
    if IsUuidString(s) then
      var t := seq(36, i requires 0 <= i < 36 => UpperHex(s[i]));
      assert IsCanonical(t) by {
        forall i | 0 <= i < 36
          ensures (if IsHyphenPosition(i) then t[i] == '-' else IsHexDigit(t[i])) && !('a' <= t[i] <= 'f')
        {
          assert t[i] == UpperHex(s[i]);
        }
      }
      Some(t)
    else None
  }

  /** Writing a UUID as text and parsing it back gives the same UUID. */
  lemma ParseCanonical(u: Uuid)
    ensures ParseUuid(u) == Some(u)
  {
    var r := ParseUuid(u);
    assert r.Some?;
    assert r.value == u by {
      forall i | 0 <= i < 36 ensures r.value[i] == u[i] {
        assert !('a' <= u[i] <= 'f');
      }
    }
  }
}

=== FILE: wrappers.dfy ===
/** Option and Result, used for Swift optionals and thrown errors. */
module Wrappers {

  datatype Option<+T> = None | Some(value: T)

  datatype Result<+T, +E> = Ok(value: T) | Err(error: E)
}
